=== FILE: README.md ===
# Signal iOS service-kit core, modelled in Dafny

This project models four small, sequential pieces of SignalServiceKit and proves properties of them.

- **URL session** (`url_session.dfy`, module `UrlSession`). `HTTPMethod` is a closed enum of six cases. Its tokens are the case-sensitive method tokens of section 9 of RFC 9110, plus PATCH from RFC 5789. The module covers the token codec `methodName` / `method(for:)`, `description`, the domain-fronting predicate `isFrontedUrl`, and the `unfrontedBaseUrl` fallback.
- **Receipt-credential redemption job record** (`job_record.dfy`, module `RedemptionJobRecord`). A keyed container is a `map<CodingKey, Value>`. `Encode` models `encode(to:)` and `Decode` models the decoding initialiser, following the Swift initialiser's key order and its rules for optional and defaulted keys. The legacy `amount` serialiser and the job-record base-class payload are opaque `Codec` pairs. They are assumed to round-trip.
- **Deleted-call-record store** (`deleted_call_store.dfy`, module `DeletedCallRecordStore`). This is the store contract that the store's tests pin down. It is a set of records keyed by `(callId, conversationId)`, with insert, delete, contains/fetch, `nextDeletedRecord` and `updateWithMergedThread`.
- **Transform pipeline** (`transform_pipeline.dfy`, module `TransformPipeline`). This is the round-trip test's configuration. The output pipeline is `[Chunked, Gzip, Encrypt]`. The input pipeline is `[Decrypt, Gunzip, Chunked]`, built with the same key material. The stages are tagged variants. Each stage has a whole-stream meaning given by an opaque `Codecs` bundle that is assumed to round-trip. The input pipeline is derived from the output pipeline by inverting each stage and reversing the order, and the model proves that composing the two is the identity. Reading back is modelled with a `read(maxLength:)` loop that runs until `hasBytesAvailable` is false.

`wrappers.dfy` holds `Option`/`Result`, which model Swift optionals and `throws`. `primitives.dfy` holds `byte`, `Bytes` (Foundation `Data`), `u64` (Swift `UInt`/`UInt64`) and `i64` (SQLite row ids).

Paths below are relative to the repository root. The store implementation and the stream classes are not modelled; their tests fix the contracts that the store and pipeline rows cite.

## Model

| member | source | states |
|---|---|---|
| UrlSession.MethodName | SignalServiceKit/Network/OWSURLSessionProtocol.swift:18-33 | every method's token is one of the six upper-case tokens GET, POST, PUT, HEAD, PATCH, DELETE |
| UrlSession.MethodFor | SignalServiceKit/Network/OWSURLSessionProtocol.swift:35-52 | parsing succeeds exactly for the six exact tokens and returns the method whose name is the input; nil and every other string throw an unknown-method error carrying the input |
| UrlSession.Description | SignalServiceKit/Network/OWSURLSessionProtocol.swift:55-57 | the description is the method name, and it parses back to the same method |
| UrlSession.MethodNameInjective | SignalServiceKit/Network/OWSURLSessionProtocol.swift:18-33 | distinct methods have distinct tokens |
| UrlSession.MethodNameOnto | SignalServiceKit/Network/OWSURLSessionProtocol.swift:18-33 | each of the six tokens is the name of some method, so the name map is a bijection onto the token set |
| UrlSession.ParseNameRoundTrip | SignalServiceKit/Network/OWSURLSessionProtocol.swift:18-48 | `method(for: m.methodName) == m` for every method |
| UrlSession.NameParseRoundTrip | SignalServiceKit/Network/OWSURLSessionProtocol.swift:35-48 | if parsing returns `m`, then the input was exactly `m`'s token |
| UrlSession.ParseRejectsLowerCase | SignalServiceKit/Network/OWSURLSessionProtocol.swift:35-51 | parsing is case-sensitive: any string holding a lower-case letter is rejected |
| UrlSession.AsciiLower | SignalServiceKit/Network/OWSURLSessionProtocol.swift:83 | lower-casing maps A-Z to a-z and leaves every other character alone; the result is never an upper-case letter |
| UrlSession.Lower | SignalServiceKit/Network/OWSURLSessionProtocol.swift:83 | `lowercased()` keeps the length and lower-cases each character in place |
| UrlSession.IsFrontedUrl | SignalServiceKit/Network/OWSURLSessionProtocol.swift:82-84 | a URL string is fronted iff it is at least as long as the fronting URL and its lower-cased characters match the fronting URL's characters position by position |
| UrlSession.LowerIdempotent | SignalServiceKit/Network/OWSURLSessionProtocol.swift:83 | lower-casing twice is the same as lower-casing once |
| UrlSession.IsFrontedUrlIgnoresCase | SignalServiceKit/Network/OWSURLSessionProtocol.swift:82-84 | `isFrontedUrl(s) == isFrontedUrl(lowercase(s))` |
| UrlSession.UpperCasePrefixNeverMatches | SignalServiceKit/Network/OWSURLSessionProtocol.swift:82-84 | the fronting URL is not lower-cased, so one that holds an upper-case letter matches no URL string |
| UrlSession.UnfrontedBaseUrl | SignalServiceKit/Network/OWSURLSessionProtocol.swift:167-169 | it is the fronting info's unfronted base URL when fronting info exists, and otherwise the endpoint's base URL; it is nil only when both are missing |
| RedemptionJobRecord.NewRecord | SignalServiceKit/Jobs/JobRecords/ReceiptCredentialRedemptionJobRecord.swift:28-67 | each field takes its argument, and the base-class fields take the exclusive process id, failure count and status |
| RedemptionJobRecord.NewRecordDefaults | SignalServiceKit/Jobs/JobRecords/ReceiptCredentialRedemptionJobRecord.swift:33-45 | when the defaulted arguments are omitted, the record has no presentation, no exclusive process id, failure count 0 and status ready |
| RedemptionJobRecord.SetReceiptCredentialPresentation | SignalServiceKit/Jobs/JobRecords/ReceiptCredentialRedemptionJobRecord.swift:129-133 | the presentation becomes the given data and every other field is unchanged |
| RedemptionJobRecord.SetPresentationEncoding | SignalServiceKit/Jobs/JobRecords/ReceiptCredentialRedemptionJobRecord.swift:112-133 | the persisted form of the updated record differs from the old one only in the presentation entry |
| RedemptionJobRecord.Encode | SignalServiceKit/Jobs/JobRecords/ReceiptCredentialRedemptionJobRecord.swift:103-125 | every required key and both defaulted flags are always written; payment method, presentation, amount and currency code are written iff present |
| RedemptionJobRecord.KeyClasses | SignalServiceKit/Jobs/JobRecords/ReceiptCredentialRedemptionJobRecord.swift:69-100 | the required, optional and defaulted key sets are pairwise disjoint and together make up all fifteen keys |
| RedemptionJobRecord.Required | SignalServiceKit/Jobs/JobRecords/ReceiptCredentialRedemptionJobRecord.swift:72 | `decode(_:forKey:)` throws key-not-found for a missing key and type-mismatch for a value of another type, and otherwise returns the stored value |
| RedemptionJobRecord.IfPresent | SignalServiceKit/Jobs/JobRecords/ReceiptCredentialRedemptionJobRecord.swift:73 | `decodeIfPresent` gives nil for a missing key, throws for a value of another type, and otherwise returns the stored value |
| RedemptionJobRecord.DeserializeAmount | SignalServiceKit/Jobs/JobRecords/ReceiptCredentialRedemptionJobRecord.swift:89-97 | a missing amount entry decodes to nil; present data decodes to what the legacy deserialiser yields, and decoding throws exactly when that deserialiser does, with the error attributed to the amount key |
| RedemptionJobRecord.DeserializeAmountRoundTrip | SignalServiceKit/Jobs/JobRecords/ReceiptCredentialRedemptionJobRecord.swift:89-97 | serialised amount data decodes back to the amount it came from |
| RedemptionJobRecord.DeserializeBase | SignalServiceKit/Jobs/JobRecords/ReceiptCredentialRedemptionJobRecord.swift:100 | the base-class state is restored exactly when its deserialiser accepts the payload, and a rejected payload makes decoding throw, with the error attributed to the `super` key |
| RedemptionJobRecord.DeserializeBaseRoundTrip | SignalServiceKit/Jobs/JobRecords/ReceiptCredentialRedemptionJobRecord.swift:100 | a serialised base payload decodes back to the base state it came from |
| RedemptionJobRecord.DecodeRequestFields | SignalServiceKit/Jobs/JobRecords/ReceiptCredentialRedemptionJobRecord.swift:72-79 | success needs the processor, request context, request and isBoost keys; payment method and presentation are present iff their keys are |
| RedemptionJobRecord.DecodeSubscriptionFields | SignalServiceKit/Jobs/JobRecords/ReceiptCredentialRedemptionJobRecord.swift:81-87 | success needs the subscriber id, both levels and the intent id; a missing isNewSubscription decodes as true and a missing shouldSuppressPaymentAlreadyRedeemed decodes as false |
| RedemptionJobRecord.DecodeAmountFields | SignalServiceKit/Jobs/JobRecords/ReceiptCredentialRedemptionJobRecord.swift:89-98 | amount and currency code are present iff their keys are, and this step never fails for a missing key |
| RedemptionJobRecord.Decode | SignalServiceKit/Jobs/JobRecords/ReceiptCredentialRedemptionJobRecord.swift:69-101 | success implies every required key is present; optional fields are present iff their keys are; the two flags take their defaults when missing; a key-not-found error names a missing required key |
| RedemptionJobRecord.DecodeEncode | SignalServiceKit/Jobs/JobRecords/ReceiptCredentialRedemptionJobRecord.swift:69-125 | decoding an encoded record gives back every field, provided the opaque amount and base codecs round-trip, so the defaults are never used |
| RedemptionJobRecord.DecodesEveryEntry | SignalServiceKit/Jobs/JobRecords/ReceiptCredentialRedemptionJobRecord.swift:69-101 | a container that agrees with a record's entries decodes to that record, except that the two defaulted flags take their defaults when their keys are missing |
| RedemptionJobRecord.MissingRequiredKeyFails | SignalServiceKit/Jobs/JobRecords/ReceiptCredentialRedemptionJobRecord.swift:69-101 | decoding throws when any required key is missing |
| RedemptionJobRecord.LegacyContainerDecodesWithDefaults | SignalServiceKit/Jobs/JobRecords/ReceiptCredentialRedemptionJobRecord.swift:84-85 | a record stored without the two flags decodes with isNewSubscription true and shouldSuppressPaymentAlreadyRedeemed false, and every other field intact |
| DeletedCallRecordStore.Contains | SignalServiceKit/tests/Calls/DeletedCallRecord/DeletedCallRecordStoreTest.swift:74-78 | contains holds iff some stored record has this call id and this conversation id |
| DeletedCallRecordStore.Fetch | SignalServiceKit/tests/Calls/DeletedCallRecord/DeletedCallRecordStoreTest.swift:45-51 | fetch finds a record iff contains holds, and the record found has the requested call id and conversation id |
| DeletedCallRecordStore.Insert | SignalServiceKit/tests/Calls/DeletedCallRecord/DeletedCallRecordStoreTest.swift:57-80 | insert adds exactly the record, the store stays well-formed, and contains then holds for the record's key |
| DeletedCallRecordStore.Delete | SignalServiceKit/tests/Calls/DeletedCallRecord/DeletedCallRecordStoreTest.swift:82-111 | delete removes exactly the records under the deleted record's key, and contains is false afterwards |
| DeletedCallRecordStore.DeleteUndoesInsert | SignalServiceKit/tests/Calls/DeletedCallRecord/DeletedCallRecordStoreTest.swift:82-111 | deleting a record just inserted restores the store |
| DeletedCallRecordStore.KeyedByPair | SignalServiceKit/tests/Calls/DeletedCallRecord/DeletedCallRecordStoreTest.swift:45-51 | one call id in two conversations gives two records, and deleting one leaves the other |
| DeletedCallRecordStore.NextDeletedRecord | SignalServiceKit/tests/Calls/DeletedCallRecord/DeletedCallRecordStoreTest.swift:115-140 | the result is nil iff the store is empty; otherwise it is a stored record with the smallest deletion timestamp |
| DeletedCallRecordStore.InsertOrderIrrelevant | SignalServiceKit/tests/Calls/DeletedCallRecord/DeletedCallRecordStoreTest.swift:116-129 | inserting two records in either order gives the same store, so the next deleted record does not depend on insertion order |
| DeletedCallRecordStore.NextDeletedRecordOfThree | SignalServiceKit/tests/Calls/DeletedCallRecord/DeletedCallRecordStoreTest.swift:115-140 | with timestamps 2, 1 and 3 inserted, the next deleted record has call id 1 and timestamp 1 |
| DeletedCallRecordStore.UpdateWithMergedThread | SignalServiceKit/tests/Calls/DeletedCallRecord/DeletedCallRecordStoreTest.swift:144-190 | every record of the source thread moves to the target thread with its call id and timestamp unchanged; nothing is left under the source thread; records of other threads stay |
| DeletedCallRecordStore.MergedRecordsFacts | SignalServiceKit/tests/Calls/DeletedCallRecord/DeletedCallRecordStoreTest.swift:169-188 | the merged map is well-formed, holds exactly the moved images of the old records, has no key under the source thread, and holds each moved record under the target thread |
| TransformPipeline.MakeEncrypting | SignalServiceKit/tests/Util/TransformingInputStreamTests.swift:12-21 | the encrypting stage is built iff the iv is 16 bytes and both keys are 32 bytes, and otherwise fails with a configuration error |
| TransformPipeline.MakeDecrypting | SignalServiceKit/tests/Util/TransformingInputStreamTests.swift:12-37 | the decrypting stage has the same length checks, and when built it carries the given key material |
| TransformPipeline.Inverse | SignalServiceKit/tests/Util/TransformingInputStreamTests.swift:17-40 | chunked inverts to chunked, gzip to gunzip, and encryption to decryption with the same key material |
| TransformPipeline.DecodePipelineFor | SignalServiceKit/tests/Util/TransformingInputStreamTests.swift:17-40 | the input pipeline has position i holding the inverse of output stage n-1-i |
| TransformPipeline.StageRoundTrip | SignalServiceKit/tests/Util/TransformingInputStreamTests.swift:17-40 | each byte stage's inverse undoes it |
| TransformPipeline.ByteStagesRoundTrip | SignalServiceKit/tests/Util/TransformingInputStreamTests.swift:17-40 | the reversed inverses of any chain of byte stages undo the whole chain |
| TransformPipeline.EncodeStream | SignalServiceKit/tests/Util/TransformingInputStreamTests.swift:17-30 | the first stage frames the writes and each later stage takes the previous stage's output, so the last stage's output is what reaches the sink |
| TransformPipeline.DecodeStream | SignalServiceKit/tests/Util/TransformingInputStreamTests.swift:35-42 | the first stage reads the source bytes, the last stage deframes, and the first stage to fail fails the stream |
| TransformPipeline.PipelineRoundTrip | SignalServiceKit/tests/Util/TransformingInputStreamTests.swift:17-40 | decoding an encoded stream with the derived input pipeline yields exactly the sequence of writes |
| TransformPipeline.NewOutputStream | SignalServiceKit/tests/Util/TransformingInputStreamTests.swift:16-24 | a new output stream has its stages and no writes |
| TransformPipeline.Write | SignalServiceKit/tests/Util/TransformingInputStreamTests.swift:26-28 | a write appends its payload as one more boundary-preserving write and keeps the stages |
| TransformPipeline.Close | SignalServiceKit/tests/Util/TransformingInputStreamTests.swift:30-40 | with round-tripping codecs, the sink's accumulation after close decodes through the derived input pipeline to exactly the writes |
| TransformPipeline.CloseRoundTrip | SignalServiceKit/tests/Util/TransformingInputStreamTests.swift:30-40 | with round-tripping codecs, the closed stream's bytes decode back to its writes |
| TransformPipeline.OpenInputStream | SignalServiceKit/tests/Util/TransformingInputStreamTests.swift:32-42 | the input stream starts with the decoded chunks of the source bytes, or with the decoding error |
| TransformPipeline.Read | SignalServiceKit/tests/Util/TransformingInputStreamTests.swift:44-47 | a read returns at most maxLength bytes, and it and the remaining current bytes make up the current chunk; an empty read leaves nothing half-read |
| TransformPipeline.EmptyReadDoesNotEnd | SignalServiceKit/tests/Util/TransformingInputStreamTests.swift:44-50 | an empty chunk reads as an empty result while later chunks stay available, so an empty read does not end the loop |
| TransformPipeline.PiecesOf | SignalServiceKit/tests/Util/TransformingInputStreamTests.swift:46 | one chunk takes at least one read, and every read is at most maxLength bytes |
| TransformPipeline.Pieces | SignalServiceKit/tests/Util/TransformingInputStreamTests.swift:46 | every read from a sequence of chunks is at most maxLength bytes |
| TransformPipeline.HasBytesAvailable | SignalServiceKit/tests/Util/TransformingInputStreamTests.swift:45 | no bytes are available exactly when no chunk is pending and the current one is used up |
| TransformPipeline.HasBytesAvailableIffReadsRemain | SignalServiceKit/tests/Util/TransformingInputStreamTests.swift:45 | bytes are available exactly when at least one read remains |
| TransformPipeline.ReadTakesFirstPiece | SignalServiceKit/tests/Util/TransformingInputStreamTests.swift:44-47 | one read consumes exactly the first of the stream's remaining reads |
| TransformPipeline.ReadToEnd | SignalServiceKit/tests/Util/TransformingInputStreamTests.swift:44-48 | reading until hasBytesAvailable is false yields the stream's remaining reads, empty ones included, each at most maxLength bytes |
| TransformPipeline.ReadProgresses | SignalServiceKit/tests/Util/TransformingInputStreamTests.swift:45-47 | a read that does not stall consumes bytes, or else a whole empty chunk, so the loop ends once reads stop stalling |
| TransformPipeline.ReadOrStall | SignalServiceKit/tests/Util/TransformingInputStreamTests.swift:45-46 | a read while every stage is still buffering returns no bytes and leaves the stream unchanged, with bytes still available; any other read is an ordinary read |
| TransformPipeline.StepKeepsKept | SignalServiceKit/tests/Util/TransformingInputStreamTests.swift:44-50 | after one read, stalled or not, the non-empty results so far followed by the non-empty reads still to come are unchanged |
| TransformPipeline.ReadToEndStalling | SignalServiceKit/tests/Util/TransformingInputStreamTests.swift:44-50 | for every schedule of stalled reads, the loop until hasBytesAvailable is false keeps, after filtering out empty results, exactly the stream's non-empty reads, each at most maxLength bytes |
| TransformPipeline.NonEmpty | SignalServiceKit/tests/Util/TransformingInputStreamTests.swift:50 | a result is kept exactly when it occurs among the reads and is non-empty, and no more results are kept than were read |
| TransformPipeline.NonEmptyAppend | SignalServiceKit/tests/Util/TransformingInputStreamTests.swift:50 | filtering distributes over concatenation, so the kept results stay in read order and their count is the sum over the parts |
| TransformPipeline.NonEmptyKeepsNonEmpty | SignalServiceKit/tests/Util/TransformingInputStreamTests.swift:50 | filtering out empty results keeps a sequence that has none |
| TransformPipeline.SmallChunksReadWhole | SignalServiceKit/tests/Util/TransformingInputStreamTests.swift:44-50 | chunks of at most maxLength bytes are read whole, one read each |
| TransformPipeline.ReadsPreserveBytes | SignalServiceKit/tests/Util/TransformingInputStreamTests.swift:44-50 | for any maxLength, the reads hold exactly the bytes of the chunks, in order |
| TransformPipeline.EndToEnd | SignalServiceKit/tests/Util/TransformingInputStreamTests.swift:10-50 | writing, closing and reading back through the derived pipeline yields the writes themselves when none exceeds maxLength |
| TransformPipeline.EmptyStreamReadsNothing | SignalServiceKit/tests/Util/TransformingInputStreamTests.swift:30-50 | a stream closed without writes reads back as nothing, with no error |
| TransformPipeline.WriteScenario | SignalServiceKit/tests/Util/TransformingInputStreamTests.swift:16-30 | writing "w", "xx" and "yyy" to a new stream and closing it leaves the accumulation of a stream holding exactly those three writes |
| TransformPipeline.RoundTripScenario | SignalServiceKit/tests/Util/TransformingInputStreamTests.swift:10-51 | with 16/32/32-byte key material shared by both pipelines, and whichever reads stall, writes "w", "xx" and "yyy" read back as exactly 3 non-empty results, equal to the writes |

## Left out

- URLSession tasks are not modelled: upload, download, data and web-socket promises, multipart bodies, redirect handling and temporary-file cleanup (OWSURLSessionProtocol.swift:94-164, 190-308). They are network I/O and asynchronous promises.
- `OWSUrlDownloadResponse` is not modelled. It only forwards to Foundation types.
- UrlSession.IsFrontedUrl, UrlSession.Lower and UrlSession.AsciiLower model `lowercased()` for ASCII letters only. Unicode case mapping is not modelled. The model compares Unicode scalars, while Swift's `hasPrefix` compares grapheme clusters, so `"e\u{301}"` starts with `"e"` in the model but not in Swift.
- UrlSession.UnfrontedBaseUrl models the endpoint's `baseUrl` as optional. `OWSURLSessionEndpoint` is not part of this model, and the result type `URL?` allows nil.
- RedemptionJobRecord.Decode: a JSON `null` value, which `decodeIfPresent` also reads as nil, is not modelled. The container has no null value.
- RedemptionJobRecord.Decode: the base-class payload is stored under one `super` entry. A missing entry throws key-not-found. `superDecoder()`'s behaviour for a missing entry is not modelled.
- RedemptionJobRecord.DeserializeAmount and RedemptionJobRecord.DeserializeBase represent whatever the legacy deserialiser or the base-class initialiser throws as `DeserializerFailed(key)`, naming the key whose payload was rejected. The thrown error's own type and content are not modelled; it is rethrown unchanged in Swift.
- RedemptionJobRecord.Encode is total. The encoder's own `throws` and `LegacySDSSerializer` failures while encoding are not modelled.
- The internals of `LegacySDSSerializer`, `Decimal` and the `JobRecord` base class are not modelled. They are `Codec` parameters assumed to round-trip. `JobStatus` names only `.ready`, the one status the record names.
- The `anyUpdate` write transaction in `setReceiptCredentialPresentation` is not modelled. Only its effect on the record is.
- DeletedCallRecordStore.Insert requires that the key is not already stored. The store's tests never insert a duplicate key, so that case is not modelled.
- DeletedCallRecordStore.UpdateWithMergedThread requires that no record of the source thread shares a call id with a record already in the target thread. The store's tests never merge threads whose records collide, so that case is not modelled.
- The database plumbing of the store is not modelled: SQLite, indexes, the query-plan explanations asserted by the tests, and transactions. `ConversationId` has only the thread case the tests use.
- `TSContactThread.h` is not modelled. It holds declarations without bodies, and thread creation needs database transactions.
- Gzip, AES and HMAC internals are not modelled, and neither is any concrete chunk-framing wire format. They are `Codecs` parameters assumed to round-trip. For this reason tamper detection and authentication cannot be stated.
- TransformPipeline.Close and TransformPipeline.OpenInputStream give each stage its whole-stream meaning. Incremental per-write pushing, per-stage `finalize`, internal buffering and bytes reaching the sink before `close()` are not modelled. A decoding error surfaces when the input stream is opened, not at a particular read.
- TransformPipeline.Read and TransformPipeline.EmptyReadDoesNotEnd: a read that does not stall never returns empty while a non-empty chunk remains, never joins two chunks, and returns at most `maxLength` bytes of the current chunk. The empty reads of buffering stages are modelled only as a schedule of stalls that the caller supplies (TransformPipeline.ReadOrStall and TransformPipeline.ReadToEndStalling), not derived from the stages' own buffering. The chunked input transform's own code is not part of this model.
- TransformPipeline.Read, TransformPipeline.ReadToEnd and TransformPipeline.ReadToEndStalling require `maxLength > 0`, so `read(maxLength: 0)` is not modelled. Such a read takes no bytes, and a loop like the test's would never end.
- TransformPipeline.MakeEncrypting and TransformPipeline.MakeDecrypting assume that the throwing initialisers fail exactly when a key length is not 16/32/32 bytes. The initialisers themselves are not part of this model; the test only calls them with those lengths.
- TransformPipeline.WellFormedOutput allows chunking only as the first output stage and its inverse only as the last input stage, which is the configuration the test uses.
- TransformPipeline.Write and TransformPipeline.Close cannot fail. Encode-side stage failures (compression, encryption and framing are total functions), the throwing gzip initialisers (`GzipCompressing` and `GzipDecompressing` are plain constructors), and I/O errors of the sink and the source are not modelled. TransformPipeline.Read cannot fail either: every decoding failure surfaces when the input stream is opened.
- Closing twice, writing after close, and resource release on `close()` are not modelled.

=== FILE: deleted_call_store.dfy ===
/**
 * The deleted-call-record store as its tests pin it down: a set of records
 * keyed by the pair (call id, conversation id). The database, its indexes
 * and transactions are replaced by a finite map.
 */
module DeletedCallRecordStore {
  import opened Wrappers
  import opened Primitives

  /** The conversation a call belongs to; the tests use thread conversations. */
  datatype ConversationId = Thread(threadRowId: i64)

  /** A record that a call was deleted, and when. */
  datatype DeletedCallRecord = DeletedCallRecord(callId: u64, conversationId: ConversationId, deletedAtTimestamp: u64)

  /** The lookup key of a record. */
  datatype RecordKey = RecordKey(callId: u64, conversationId: ConversationId)

  function KeyOf(r: DeletedCallRecord): RecordKey {
    RecordKey(r.callId, r.conversationId)
  }

  /** The store: every record sits under its own key. */
  datatype Store = Store(records: map<RecordKey, DeletedCallRecord>) {
    ghost predicate Valid() {
      forall k :: k in records ==> KeyOf(records[k]) == k
    }
  }

  const Empty: Store := Store(map[])

  /** The records held by the store. */
  function Contents(s: Store): set<DeletedCallRecord> {
    s.records.Values
  }

  /** Whether a record for this call in this conversation is stored. */
  function Contains(s: Store, callId: u64, conversationId: ConversationId): (b: bool)
    requires s.Valid()
    ensures b <==> exists r :: r in Contents(s) && r.callId == callId && r.conversationId == conversationId
  {
    var k := RecordKey(callId, conversationId);
    assert k in s.records ==> s.records[k] in Contents(s);
    k in s.records
  }

  /** The record for this call in this conversation, if any. */
  function Fetch(s: Store, callId: u64, conversationId: ConversationId): (r: Option<DeletedCallRecord>)
    requires s.Valid()
    ensures r.Some? <==> Contains(s, callId, conversationId)
    ensures r.Some? ==> r.value in Contents(s) && r.value.callId == callId && r.value.conversationId == conversationId
  {
    var k := RecordKey(callId, conversationId);
    if k in s.records then Some(s.records[k]) else None
  }

  /** Stores a record whose key is not yet taken. */
  function Insert(s: Store, r: DeletedCallRecord): (t: Store)
    requires s.Valid() && !Contains(s, r.callId, r.conversationId)
    ensures t.Valid()
    ensures Contents(t) == Contents(s) + {r}
    ensures Contains(t, r.callId, r.conversationId)
  {
    var t := Store(s.records[KeyOf(r) := r]);
    assert Contents(t) == Contents(s) + {r} by {
      forall x | x in Contents(s) + {r} ensures x in Contents(t) {
        if x != r {
          var k :| k in s.records && s.records[k] == x;
          assert k != KeyOf(r);
          assert t.records[k] == x;
        } else {
          assert t.records[KeyOf(r)] == x;
        }
      }
    }
    t
  }

  /** Removes the record stored under the expired record's key. */
  function Delete(s: Store, r: DeletedCallRecord): (t: Store)
    requires s.Valid()
    ensures t.Valid()
    ensures !Contains(t, r.callId, r.conversationId)
    ensures Contents(t) == set x | x in Contents(s) && KeyOf(x) != KeyOf(r)
  {
    var t := Store(s.records - {KeyOf(r)});
    assert Contents(t) == set x | x in Contents(s) && KeyOf(x) != KeyOf(r) by {
      forall x | x in Contents(s) && KeyOf(x) != KeyOf(r) ensures x in Contents(t) {
        var k :| k in s.records && s.records[k] == x;
        assert t.records[k] == x;
      }
    }
    t
  }

  /** The record deleted earliest: one with the smallest deletion timestamp. */
  predicate IsEarliest(s: Store, r: DeletedCallRecord) {
    r in Contents(s) && forall x :: x in Contents(s) ==> r.deletedAtTimestamp <= x.deletedAtTimestamp
  }

  /** The next deleted record to expire, by scanning every stored record. */
  method NextDeletedRecord(s: Store) returns (r: Option<DeletedCallRecord>)
    ensures r.None? <==> Contents(s) == {}
    ensures r.Some? ==> IsEarliest(s, r.value)
  {
    var remaining := Contents(s);
    r := None;
    while remaining != {}
      invariant remaining <= Contents(s)
      invariant r.None? <==> remaining == Contents(s)
      invariant r.Some? ==> r.value in Contents(s)
      invariant r.Some? ==> forall x :: x in Contents(s) - remaining ==> r.value.deletedAtTimestamp <= x.deletedAtTimestamp
      decreases remaining
    {
      var x :| x in remaining;
      if r.None? || x.deletedAtTimestamp < r.value.deletedAtTimestamp {
        r := Some(x);
      }
      remaining := remaining - {x};
    }
  }

  /** No record under `from` shares its call id with a record already under `into`. */
  predicate NoMergeCollision(s: Store, from: i64, into: i64) {
    from == into ||
    forall k :: k in s.records && k.conversationId == Thread(from) ==> RecordKey(k.callId, Thread(into)) !in s.records
  }

  /** The record as it reads after its thread has been merged into `into`. */
  function Moved(r: DeletedCallRecord, from: i64, into: i64): DeletedCallRecord {
    if r.conversationId == Thread(from) then r.(conversationId := Thread(into)) else r
  }

  /** Re-keys every record of thread `from` to thread `into`. */
  function UpdateWithMergedThread(s: Store, from: i64, into: i64): (t: Store)
    requires s.Valid() && NoMergeCollision(s, from, into)
    ensures t.Valid()
    ensures Contents(t) == set r | r in Contents(s) :: Moved(r, from, into)
    ensures from != into ==> forall callId :: !Contains(t, callId, Thread(from))
    ensures forall r :: r in Contents(s) && r.conversationId == Thread(from) ==>
      Fetch(t, r.callId, Thread(into)) == Some(r.(conversationId := Thread(into)))
  {
    if from == into then
      assert Contents(s) == set r | r in Contents(s) :: Moved(r, from, into);
      s
    else
      MergedRecordsFacts(s, from, into);
      Store(MergedRecords(s, from, into))
  }

  /** The records of other threads, untouched, plus the moved records under their new keys. */
  function MergedRecords(s: Store, from: i64, into: i64): map<RecordKey, DeletedCallRecord>
    requires s.Valid()
  {
    var kept := map k | k in s.records && k.conversationId != Thread(from) :: s.records[k];
    var moved := map k | k in s.records && k.conversationId == Thread(from)
      :: RecordKey(k.callId, Thread(into)) := s.records[k].(conversationId := Thread(into));
    kept + moved
  }

  lemma MergedRecordsFacts(s: Store, from: i64, into: i64)
    requires s.Valid() && from != into && NoMergeCollision(s, from, into)
    ensures Store(MergedRecords(s, from, into)).Valid()
    ensures Contents(Store(MergedRecords(s, from, into))) == set r | r in Contents(s) :: Moved(r, from, into)
    ensures forall callId :: RecordKey(callId, Thread(from)) !in MergedRecords(s, from, into)
    ensures forall r :: r in Contents(s) && r.conversationId == Thread(from) ==>
      && RecordKey(r.callId, Thread(into)) in MergedRecords(s, from, into)
      && MergedRecords(s, from, into)[RecordKey(r.callId, Thread(into))] == r.(conversationId := Thread(into))
  {
    var m := MergedRecords(s, from, into);
    var t := Store(m);
    var image := set r | r in Contents(s) :: Moved(r, from, into);
    forall k | k in m ensures KeyOf(m[k]) == k {
      if k.conversationId == Thread(into) && RecordKey(k.callId, Thread(from)) in s.records {
        assert m[k] == s.records[RecordKey(k.callId, Thread(from))].(conversationId := Thread(into));
      } else {
        assert m[k] == s.records[k];
      }
    }
    forall r | r in Contents(s) && r.conversationId == Thread(from)
      ensures RecordKey(r.callId, Thread(into)) in m && m[RecordKey(r.callId, Thread(into))] == r.(conversationId := Thread(into))
    {
      var k :| k in s.records && s.records[k] == r;
      assert k == RecordKey(r.callId, Thread(from));
    }
    forall x | x in Contents(t) ensures x in image {
      var k :| k in m && m[k] == x;
      if k.conversationId == Thread(into) && RecordKey(k.callId, Thread(from)) in s.records {
        var r := s.records[RecordKey(k.callId, Thread(from))];
        assert x == Moved(r, from, into);
      } else {
        assert x == s.records[k] && x == Moved(s.records[k], from, into);
      }
    }
    forall y | y in image ensures y in Contents(t) {
      var r :| r in Contents(s) && y == Moved(r, from, into);
      var k :| k in s.records && s.records[k] == r;
      if r.conversationId == Thread(from) {
        assert m[RecordKey(r.callId, Thread(into))] == y;
      } else {
        assert m[k] == y;
      }
    }
  }

  // ----- Properties the tests exercise -----

  /** Deleting what was just inserted gives back the store as it was. */
  lemma DeleteUndoesInsert(s: Store, r: DeletedCallRecord)
    requires s.Valid() && !Contains(s, r.callId, r.conversationId)
    ensures Delete(Insert(s, r), r) == s
  {
    assert Delete(Insert(s, r), r).records == s.records;
  }

  /** The store does not remember the order records were inserted in. */
  lemma InsertOrderIrrelevant(s: Store, a: DeletedCallRecord, b: DeletedCallRecord)
    requires s.Valid() && KeyOf(a) != KeyOf(b)
    requires !Contains(s, a.callId, a.conversationId) && !Contains(s, b.callId, b.conversationId)
    ensures Insert(Insert(s, a), b) == Insert(Insert(s, b), a)
  {
    assert Insert(Insert(s, a), b).records == Insert(Insert(s, b), a).records;
  }

  /**
   * Lookup is by the pair: the same call id in two conversations gives two
   * records, and deleting one leaves the other.
   */
  lemma KeyedByPair(s: Store, a: DeletedCallRecord, b: DeletedCallRecord)
    requires s.Valid() && a.callId == b.callId && a.conversationId != b.conversationId
    requires !Contains(s, a.callId, a.conversationId) && !Contains(s, b.callId, b.conversationId)
    ensures var t := Insert(Insert(s, a), b);
      && Contains(t, a.callId, a.conversationId)
      && Contains(t, b.callId, b.conversationId)
      && !Contains(Delete(t, a), a.callId, a.conversationId)
      && Contains(Delete(t, a), b.callId, b.conversationId)
  {
    var t := Insert(Insert(s, a), b);
    assert KeyOf(a) in t.records;
  }

  /** The store of the expiry test: three threads, timestamps 2, 1 and 3. */
  method NextDeletedRecordOfThree() returns (r: Option<DeletedCallRecord>)
    ensures r.Some? && r.value.callId == 1 && r.value.deletedAtTimestamp == 1
  {
    var r2 := DeletedCallRecord(2, Thread(1), 2);
    var r1 := DeletedCallRecord(1, Thread(2), 1);
    var r3 := DeletedCallRecord(3, Thread(3), 3);
    var s := Insert(Insert(Insert(Empty, r2), r1), r3);
    assert Contents(s) == {r2, r1, r3};
    r := NextDeletedRecord(s);
  }
}

=== FILE: job_record.dfy ===
/**
 * The donation receipt-credential redemption job record and its keyed
 * serialisation. A keyed coding container is a finite map from coding key
 * to a typed value. The legacy serialiser of the `amount` decimal and the
 * payload of the job-record base class are opaque codecs, passed in as a
 * serialise/deserialise pair that is assumed to round-trip.
 */
module RedemptionJobRecord {
  import opened Wrappers
  import opened Primitives

  /** The coding keys of the record; `SuperKey` holds the base-class payload. */
  datatype CodingKey =
    | PaymentProcessorKey
    | PaymentMethodKey
    | RequestContextKey
    | RequestKey
    | PresentationKey
    | IsBoostKey
    | SubscriberIdKey
    | TargetSubscriptionLevelKey
    | PriorSubscriptionLevelKey
    | IsNewSubscriptionKey
    | ShouldSuppressPaymentAlreadyRedeemedKey
    | BoostPaymentIntentIdKey
    | AmountKey
    | CurrencyCodeKey
    | SuperKey

  /** A value stored in a keyed container. */
  datatype Value =
    | StringValue(s: string)
    | DataValue(d: Bytes)
    | BoolValue(b: bool)
    | UIntValue(n: u64)

  type Container = map<CodingKey, Value>

  /**
   * What decoding can throw: the keyed container's `DecodingError` cases,
   * and whatever a nested deserialiser throws for the payload under `key`.
   */
  datatype DecodingError =
    | KeyNotFound(key: CodingKey)
    | TypeMismatch(key: CodingKey)
    | DeserializerFailed(key: CodingKey)

  /** An opaque serialiser: a value to bytes and, possibly failing, back. */
  datatype Codec<!T> = Codec(serialize: T -> Bytes, deserialize: Bytes -> Option<T>)

  ghost predicate RoundTrips<T(!new)>(codec: Codec<T>) {
    forall x :: codec.deserialize(codec.serialize(x)) == Some(x)
  }

  /** Foundation `Decimal`, as significand times ten to the exponent. */
  datatype Decimal = Decimal(significand: int, exponent: int)

  /** The job status of the base class; only `.ready` is named by this record. */
  datatype JobStatus = Ready | OtherStatus(rawValue: nat)

  /** The fields the record inherits from the job-record base class. */
  datatype JobBase = JobBase(exclusiveProcessIdentifier: Option<string>, failureCount: u64, status: JobStatus)

  datatype Record = Record(
    paymentProcessor: string,
    paymentMethod: Option<string>,
    receiptCredentialRequestContext: Bytes,
    receiptCredentialRequest: Bytes,
    receiptCredentialPresentation: Option<Bytes>,
    isBoost: bool,
    subscriberId: Bytes,
    targetSubscriptionLevel: u64,
    priorSubscriptionLevel: u64,
    isNewSubscription: bool,
    shouldSuppressPaymentAlreadyRedeemed: bool,
    boostPaymentIntentId: string,
    amount: Option<Decimal>,
    currencyCode: Option<string>,
    base: JobBase)

  /** The keys whose absence makes decoding throw. */
  const RequiredKeys: set<CodingKey> := {
    PaymentProcessorKey, RequestContextKey, RequestKey, IsBoostKey, SubscriberIdKey,
    TargetSubscriptionLevelKey, PriorSubscriptionLevelKey, BoostPaymentIntentIdKey, SuperKey }

  /** The keys written only when the field is present. */
  const OptionalKeys: set<CodingKey> := {PaymentMethodKey, PresentationKey, AmountKey, CurrencyCodeKey}

  /** The keys that decode to a fixed value when missing. */
  const DefaultedKeys: set<CodingKey> := {IsNewSubscriptionKey, ShouldSuppressPaymentAlreadyRedeemedKey}

  // ----- Construction and update -----

  /** The designated initialiser, with the Swift initialiser's default arguments. */
  function NewRecord(
    paymentProcessor: string,
    paymentMethod: Option<string>,
    receiptCredentialRequestContext: Bytes,
    receiptCredentialRequest: Bytes,
    subscriberId: Bytes,
    targetSubscriptionLevel: u64,
    priorSubscriptionLevel: u64,
    isNewSubscription: bool,
    shouldSuppressPaymentAlreadyRedeemed: bool,
    isBoost: bool,
    amount: Option<Decimal>,
    currencyCode: Option<string>,
    boostPaymentIntentId: string,
    receiptCredentialPresentation: Option<Bytes> := None,
    exclusiveProcessIdentifier: Option<string> := None,
    failureCount: u64 := 0,
    status: JobStatus := Ready): (r: Record)
    ensures r.paymentProcessor == paymentProcessor && r.paymentMethod == paymentMethod
    ensures r.receiptCredentialRequestContext == receiptCredentialRequestContext
    ensures r.receiptCredentialRequest == receiptCredentialRequest
    ensures r.receiptCredentialPresentation == receiptCredentialPresentation
    ensures r.subscriberId == subscriberId && r.isBoost == isBoost
    ensures r.targetSubscriptionLevel == targetSubscriptionLevel
    ensures r.priorSubscriptionLevel == priorSubscriptionLevel
    ensures r.isNewSubscription == isNewSubscription
    ensures r.shouldSuppressPaymentAlreadyRedeemed == shouldSuppressPaymentAlreadyRedeemed
    ensures r.amount == amount && r.currencyCode == currencyCode
    ensures r.boostPaymentIntentId == boostPaymentIntentId
    ensures r.base == JobBase(exclusiveProcessIdentifier, failureCount, status)
  {
    Record(paymentProcessor, paymentMethod, receiptCredentialRequestContext, receiptCredentialRequest,
           receiptCredentialPresentation, isBoost, subscriberId, targetSubscriptionLevel, priorSubscriptionLevel,
           isNewSubscription, shouldSuppressPaymentAlreadyRedeemed, boostPaymentIntentId, amount, currencyCode,
           JobBase(exclusiveProcessIdentifier, failureCount, status))
  }

  /** A new record has no presentation yet and is a ready job that never failed. */
  lemma NewRecordDefaults(
    paymentProcessor: string, paymentMethod: Option<string>, context: Bytes, request: Bytes,
    subscriberId: Bytes, target: u64, prior: u64, isNew: bool, suppress: bool, isBoost: bool,
    amount: Option<Decimal>, currencyCode: Option<string>, intentId: string)
    ensures var r := NewRecord(paymentProcessor, paymentMethod, context, request, subscriberId, target, prior,
                               isNew, suppress, isBoost, amount, currencyCode, intentId);
      && r.receiptCredentialPresentation == None
      && r.base == JobBase(None, 0, Ready)
  {
  }

  /** Every field but the presentation is equal. */
  predicate SameExceptPresentation(a: Record, b: Record) {
    a.(receiptCredentialPresentation := None) == b.(receiptCredentialPresentation := None)
  }

  /** Stores the redeemed presentation; every other field is immutable. */
  function SetReceiptCredentialPresentation(rec: Record, presentation: Bytes): (r: Record)
    ensures r.receiptCredentialPresentation == Some(presentation)
    ensures SameExceptPresentation(rec, r)
  {
    rec.(receiptCredentialPresentation := Some(presentation))
  }

  // ----- Encoding -----

  function StringIfPresent(s: Option<string>): Option<Value> {
    match s
    case Some(x) => Some(StringValue(x))
    case None => None
  }

  function DataIfPresent(d: Option<Bytes>): Option<Value> {
    match d
    case Some(x) => Some(DataValue(x))
    case None => None
  }

  /** The legacy serialisation of the optional amount, absent for no amount. */
  function AmountIfPresent(amount: Option<Decimal>, amountCodec: Codec<Decimal>): Option<Value> {
    match amount
    case Some(a) => Some(DataValue(amountCodec.serialize(a)))
    case None => None
  }

  /** Every coding key of the record. */
  const AllKeys: set<CodingKey> := {
    PaymentProcessorKey, PaymentMethodKey, RequestContextKey, RequestKey, PresentationKey, IsBoostKey,
    SubscriberIdKey, TargetSubscriptionLevelKey, PriorSubscriptionLevelKey, IsNewSubscriptionKey,
    ShouldSuppressPaymentAlreadyRedeemedKey, BoostPaymentIntentIdKey, AmountKey, CurrencyCodeKey, SuperKey }

  /** The entry `encode(to:)` writes under one key, if it writes one. */
  function Entry(rec: Record, k: CodingKey, amountCodec: Codec<Decimal>, baseCodec: Codec<JobBase>): Option<Value> {
    match k
    case SuperKey => Some(DataValue(baseCodec.serialize(rec.base)))
    case PaymentProcessorKey => Some(StringValue(rec.paymentProcessor))
    case PaymentMethodKey => StringIfPresent(rec.paymentMethod)
    case RequestContextKey => Some(DataValue(rec.receiptCredentialRequestContext))
    case RequestKey => Some(DataValue(rec.receiptCredentialRequest))
    case PresentationKey => DataIfPresent(rec.receiptCredentialPresentation)
    case SubscriberIdKey => Some(DataValue(rec.subscriberId))
    case TargetSubscriptionLevelKey => Some(UIntValue(rec.targetSubscriptionLevel))
    case PriorSubscriptionLevelKey => Some(UIntValue(rec.priorSubscriptionLevel))
    case IsNewSubscriptionKey => Some(BoolValue(rec.isNewSubscription))
    case ShouldSuppressPaymentAlreadyRedeemedKey => Some(BoolValue(rec.shouldSuppressPaymentAlreadyRedeemed))
    case IsBoostKey => Some(BoolValue(rec.isBoost))
    case AmountKey => AmountIfPresent(rec.amount, amountCodec)
    case CurrencyCodeKey => StringIfPresent(rec.currencyCode)
    case BoostPaymentIntentIdKey => Some(StringValue(rec.boostPaymentIntentId))
  }

  /**
   * `encode(to:)`: every required field and both defaulted flags are
   * written, the optional fields only when present.
   */
  function Encode(rec: Record, amountCodec: Codec<Decimal>, baseCodec: Codec<JobBase>): (c: Container)
    ensures RequiredKeys + DefaultedKeys <= c.Keys
    ensures PaymentMethodKey in c <==> rec.paymentMethod.Some?
    ensures PresentationKey in c <==> rec.receiptCredentialPresentation.Some?
    ensures AmountKey in c <==> rec.amount.Some?
    ensures CurrencyCodeKey in c <==> rec.currencyCode.Some?
    ensures c[IsNewSubscriptionKey] == BoolValue(rec.isNewSubscription)
    ensures c[ShouldSuppressPaymentAlreadyRedeemedKey] == BoolValue(rec.shouldSuppressPaymentAlreadyRedeemed)
  {
    map k | k in AllKeys && Entry(rec, k, amountCodec, baseCodec).Some? :: Entry(rec, k, amountCodec, baseCodec).value
  }

  // ----- Decoding -----

  function AsString(v: Value): Option<string> {
    if v.StringValue? then Some(v.s) else None
  }

  function AsData(v: Value): Option<Bytes> {
    if v.DataValue? then Some(v.d) else None
  }

  function AsBool(v: Value): Option<bool> {
    if v.BoolValue? then Some(v.b) else None
  }

  function AsUInt(v: Value): Option<u64> {
    if v.UIntValue? then Some(v.n) else None
  }

  /** `decode(_:forKey:)`: throws for a missing key or a value of another type. */
  function Required<T>(c: Container, k: CodingKey, project: Value -> Option<T>): (r: Result<T, DecodingError>)
    ensures k !in c ==> r == Failure(KeyNotFound(k))
    ensures k in c && project(c[k]).None? ==> r == Failure(TypeMismatch(k))
    ensures k in c && project(c[k]).Some? ==> r == Success(project(c[k]).value)
  {
    if k !in c then Failure(KeyNotFound(k))
    else match project(c[k])
      case Some(x) => Success(x)
      case None => Failure(TypeMismatch(k))
  }

  /** `decodeIfPresent(_:forKey:)`: a missing key is `nil`, a value of another type throws. */
  function IfPresent<T>(c: Container, k: CodingKey, project: Value -> Option<T>): (r: Result<Option<T>, DecodingError>)
    ensures k !in c ==> r == Success(None)
    ensures k in c && project(c[k]).None? ==> r == Failure(TypeMismatch(k))
    ensures k in c && project(c[k]).Some? ==> r == Success(Some(project(c[k]).value))
  {
    if k !in c then Success(None)
    else match project(c[k])
      case Some(x) => Success(Some(x))
      case None => Failure(TypeMismatch(k))
  }

  /** Runs the legacy deserialiser over the amount data, when there is any. */
  function DeserializeAmount(data: Option<Bytes>, amountCodec: Codec<Decimal>): (r: Result<Option<Decimal>, DecodingError>)
    ensures data.None? ==> r == Success(None)
    ensures data.Some? && r.Success? ==> r.value.Some? && Some(r.value.value) == amountCodec.deserialize(data.value)
    ensures r.Failure? <==> data.Some? && amountCodec.deserialize(data.value).None?
    ensures r.Failure? ==> r.error == DeserializerFailed(AmountKey)
  {
    match data
    case None => Success(None)
    case Some(d) =>
      match amountCodec.deserialize(d)
      case Some(a) => Success(Some(a))
      case None => Failure(DeserializerFailed(AmountKey))
  }

  /** Restores the base-class state from the `super` entry's payload. */
  function DeserializeBase(data: Bytes, baseCodec: Codec<JobBase>): (r: Result<JobBase, DecodingError>)
    ensures r.Success? <==> baseCodec.deserialize(data).Some?
    ensures r.Success? ==> Some(r.value) == baseCodec.deserialize(data)
    ensures r.Failure? ==> r.error == DeserializerFailed(SuperKey)
  {
    match baseCodec.deserialize(data)
    case Some(b) => Success(b)
    case None => Failure(DeserializerFailed(SuperKey))
  }

  /** Stored amount data decodes back to the amount it was serialised from. */
  lemma DeserializeAmountRoundTrip(a: Decimal, amountCodec: Codec<Decimal>)
    requires RoundTrips(amountCodec)
    ensures DeserializeAmount(Some(amountCodec.serialize(a)), amountCodec) == Success(Some(a))
  {
  }

  /** A stored base payload decodes back to the base state it was serialised from. */
  lemma DeserializeBaseRoundTrip(b: JobBase, baseCodec: Codec<JobBase>)
    requires RoundTrips(baseCodec)
    ensures DeserializeBase(baseCodec.serialize(b), baseCodec) == Success(b)
  {
  }

  /** The fields decoded before the subscription fields. */
  datatype RequestFields = RequestFields(
    paymentProcessor: string, paymentMethod: Option<string>, requestContext: Bytes, request: Bytes,
    presentation: Option<Bytes>, isBoost: bool)

  /** The subscription fields, after defaulting. */
  datatype SubscriptionFields = SubscriptionFields(
    subscriberId: Bytes, target: u64, prior: u64, isNewSubscription: bool, suppress: bool, intentId: string)

  /** The optional payment fields decoded last before the base payload. */
  datatype AmountFields = AmountFields(amount: Option<Decimal>, currencyCode: Option<string>)

  function DecodeRequestFields(c: Container): (r: Result<RequestFields, DecodingError>)
    ensures r.Success? ==> {PaymentProcessorKey, RequestContextKey, RequestKey, IsBoostKey} <= c.Keys
    ensures r.Success? ==> (PaymentMethodKey in c <==> r.value.paymentMethod.Some?)
    ensures r.Success? ==> (PresentationKey in c <==> r.value.presentation.Some?)
    ensures r.Failure? && r.error.KeyNotFound? ==> r.error.key in RequiredKeys && r.error.key !in c
  {
    var paymentProcessor :- Required(c, PaymentProcessorKey, AsString);
    var paymentMethod :- IfPresent(c, PaymentMethodKey, AsString);
    var requestContext :- Required(c, RequestContextKey, AsData);
    var request :- Required(c, RequestKey, AsData);
    var presentation :- IfPresent(c, PresentationKey, AsData);
    var isBoost :- Required(c, IsBoostKey, AsBool);
    Success(RequestFields(paymentProcessor, paymentMethod, requestContext, request, presentation, isBoost))
  }

  function DecodeSubscriptionFields(c: Container): (r: Result<SubscriptionFields, DecodingError>)
    ensures r.Success? ==> {SubscriberIdKey, TargetSubscriptionLevelKey, PriorSubscriptionLevelKey, BoostPaymentIntentIdKey} <= c.Keys
    ensures r.Success? && IsNewSubscriptionKey !in c ==> r.value.isNewSubscription
    ensures r.Success? && ShouldSuppressPaymentAlreadyRedeemedKey !in c ==> !r.value.suppress
    ensures r.Failure? && r.error.KeyNotFound? ==> r.error.key in RequiredKeys && r.error.key !in c
  {
    var subscriberId :- Required(c, SubscriberIdKey, AsData);
    var target :- Required(c, TargetSubscriptionLevelKey, AsUInt);
    var prior :- Required(c, PriorSubscriptionLevelKey, AsUInt);
    var isNew :- IfPresent(c, IsNewSubscriptionKey, AsBool);
    var suppress :- IfPresent(c, ShouldSuppressPaymentAlreadyRedeemedKey, AsBool);
    var intentId :- Required(c, BoostPaymentIntentIdKey, AsString);
    Success(SubscriptionFields(subscriberId, target, prior, isNew.GetOr(true), suppress.GetOr(false), intentId))
  }

  function DecodeAmountFields(c: Container, amountCodec: Codec<Decimal>): (r: Result<AmountFields, DecodingError>)
    ensures r.Success? ==> (AmountKey in c <==> r.value.amount.Some?)
    ensures r.Success? ==> (CurrencyCodeKey in c <==> r.value.currencyCode.Some?)
    ensures r.Failure? ==> !r.error.KeyNotFound?
  {
    var amountData :- IfPresent(c, AmountKey, AsData);
    var amount :- DeserializeAmount(amountData, amountCodec);
    var currencyCode :- IfPresent(c, CurrencyCodeKey, AsString);
    Success(AmountFields(amount, currencyCode))
  }

  /**
   * The decoding initialiser: fields in the order the Swift initialiser reads them, the first error wins;
   * `isNewSubscription` defaults to true and
   * `shouldSuppressPaymentAlreadyRedeemed` to false when their key is missing.
   */
  function Decode(c: Container, amountCodec: Codec<Decimal>, baseCodec: Codec<JobBase>): (r: Result<Record, DecodingError>)
    ensures r.Success? ==> RequiredKeys <= c.Keys
    ensures r.Success? ==> (PaymentMethodKey in c <==> r.value.paymentMethod.Some?)
    ensures r.Success? ==> (PresentationKey in c <==> r.value.receiptCredentialPresentation.Some?)
    ensures r.Success? ==> (AmountKey in c <==> r.value.amount.Some?)
    ensures r.Success? ==> (CurrencyCodeKey in c <==> r.value.currencyCode.Some?)
    ensures r.Success? && IsNewSubscriptionKey !in c ==> r.value.isNewSubscription
    ensures r.Success? && ShouldSuppressPaymentAlreadyRedeemedKey !in c ==> !r.value.shouldSuppressPaymentAlreadyRedeemed
    ensures r.Failure? && r.error.KeyNotFound? ==> r.error.key in RequiredKeys && r.error.key !in c
  {
    var q :- DecodeRequestFields(c);
    var s :- DecodeSubscriptionFields(c);
    var a :- DecodeAmountFields(c, amountCodec);
    var baseData :- Required(c, SuperKey, AsData);
    var base :- DeserializeBase(baseData, baseCodec);
    Success(Record(q.paymentProcessor, q.paymentMethod, q.requestContext, q.request, q.presentation, q.isBoost,
                   s.subscriberId, s.target, s.prior, s.isNewSubscription, s.suppress, s.intentId,
                   a.amount, a.currencyCode, base))
  }

  // ----- Properties -----

  /** Decoding an encoded record gives back every field, given round-tripping opaque codecs. */
  lemma DecodeEncode(rec: Record, amountCodec: Codec<Decimal>, baseCodec: Codec<JobBase>)
    requires RoundTrips(amountCodec) && RoundTrips(baseCodec)
    ensures Decode(Encode(rec, amountCodec, baseCodec), amountCodec, baseCodec) == Success(rec)
  {
    EncodeEntries(rec, amountCodec, baseCodec);
    DecodesEveryEntry(rec, Encode(rec, amountCodec, baseCodec), amountCodec, baseCodec);
  }

  /** On the given keys, `c` holds exactly the entries `encode(to:)` writes for `rec`. */
  ghost predicate EntriesAgree(rec: Record, c: Container, amountCodec: Codec<Decimal>, baseCodec: Codec<JobBase>, keys: set<CodingKey>) {
    forall k :: k in keys ==>
      && (k in c <==> Entry(rec, k, amountCodec, baseCodec).Some?)
      && (k in c ==> c[k] == Entry(rec, k, amountCodec, baseCodec).value)
  }

  /** The keys whose entries decode back without any default applied. */
  const ExactKeys: set<CodingKey> := AllKeys - DefaultedKeys

  lemma RequestFieldsFromEntries(rec: Record, c: Container, amountCodec: Codec<Decimal>, baseCodec: Codec<JobBase>)
    requires EntriesAgree(rec, c, amountCodec, baseCodec, ExactKeys)
    ensures DecodeRequestFields(c) == Success(RequestFields(
      rec.paymentProcessor, rec.paymentMethod, rec.receiptCredentialRequestContext,
      rec.receiptCredentialRequest, rec.receiptCredentialPresentation, rec.isBoost))
  {
    assert PaymentProcessorKey in ExactKeys && PaymentMethodKey in ExactKeys && RequestContextKey in ExactKeys;
    assert RequestKey in ExactKeys && PresentationKey in ExactKeys && IsBoostKey in ExactKeys;
    assert Required(c, PaymentProcessorKey, AsString) == Success(rec.paymentProcessor);
    assert IfPresent(c, PaymentMethodKey, AsString) == Success(rec.paymentMethod);
    assert Required(c, RequestContextKey, AsData) == Success(rec.receiptCredentialRequestContext);
    assert Required(c, RequestKey, AsData) == Success(rec.receiptCredentialRequest);
    assert IfPresent(c, PresentationKey, AsData) == Success(rec.receiptCredentialPresentation);
    assert Required(c, IsBoostKey, AsBool) == Success(rec.isBoost);
  }

  lemma SubscriptionFieldsFromEntries(rec: Record, c: Container, amountCodec: Codec<Decimal>, baseCodec: Codec<JobBase>)
    requires EntriesAgree(rec, c, amountCodec, baseCodec, ExactKeys)
    requires IsNewSubscriptionKey in c ==> c[IsNewSubscriptionKey] == BoolValue(rec.isNewSubscription)
    requires ShouldSuppressPaymentAlreadyRedeemedKey in c ==>
      c[ShouldSuppressPaymentAlreadyRedeemedKey] == BoolValue(rec.shouldSuppressPaymentAlreadyRedeemed)
    ensures DecodeSubscriptionFields(c) == Success(SubscriptionFields(
      rec.subscriberId, rec.targetSubscriptionLevel, rec.priorSubscriptionLevel,
      if IsNewSubscriptionKey in c then rec.isNewSubscription else true,
      if ShouldSuppressPaymentAlreadyRedeemedKey in c then rec.shouldSuppressPaymentAlreadyRedeemed else false,
      rec.boostPaymentIntentId))
  {
    assert SubscriberIdKey in ExactKeys && TargetSubscriptionLevelKey in ExactKeys;
    assert PriorSubscriptionLevelKey in ExactKeys && BoostPaymentIntentIdKey in ExactKeys;
    assert Required(c, SubscriberIdKey, AsData) == Success(rec.subscriberId);
    assert Required(c, TargetSubscriptionLevelKey, AsUInt) == Success(rec.targetSubscriptionLevel);
    assert Required(c, PriorSubscriptionLevelKey, AsUInt) == Success(rec.priorSubscriptionLevel);
    assert Required(c, BoostPaymentIntentIdKey, AsString) == Success(rec.boostPaymentIntentId);
  }

  lemma AmountFieldsFromEntries(rec: Record, c: Container, amountCodec: Codec<Decimal>, baseCodec: Codec<JobBase>)
    requires RoundTrips(amountCodec)
    requires EntriesAgree(rec, c, amountCodec, baseCodec, ExactKeys)
    ensures DecodeAmountFields(c, amountCodec) == Success(AmountFields(rec.amount, rec.currencyCode))
  {
    assert AmountKey in ExactKeys && CurrencyCodeKey in ExactKeys;
    var amountData := IfPresent(c, AmountKey, AsData);
    assert amountData.Success?;
    assert DeserializeAmount(amountData.value, amountCodec) == Success(rec.amount);
    assert IfPresent(c, CurrencyCodeKey, AsString) == Success(rec.currencyCode);
  }

  /** Each decoding step reads back the field its key was written from. */
  lemma DecodesEveryEntry(rec: Record, c: Container, amountCodec: Codec<Decimal>, baseCodec: Codec<JobBase>)
    requires RoundTrips(amountCodec) && RoundTrips(baseCodec)
    requires EntriesAgree(rec, c, amountCodec, baseCodec, ExactKeys)
    requires IsNewSubscriptionKey in c ==> c[IsNewSubscriptionKey] == BoolValue(rec.isNewSubscription)
    requires ShouldSuppressPaymentAlreadyRedeemedKey in c ==>
      c[ShouldSuppressPaymentAlreadyRedeemedKey] == BoolValue(rec.shouldSuppressPaymentAlreadyRedeemed)
    ensures Decode(c, amountCodec, baseCodec) == Success(rec.(
      isNewSubscription := if IsNewSubscriptionKey in c then rec.isNewSubscription else true,
      shouldSuppressPaymentAlreadyRedeemed :=
        if ShouldSuppressPaymentAlreadyRedeemedKey in c then rec.shouldSuppressPaymentAlreadyRedeemed else false))
  {
    RequestFieldsFromEntries(rec, c, amountCodec, baseCodec);
    SubscriptionFieldsFromEntries(rec, c, amountCodec, baseCodec);
    AmountFieldsFromEntries(rec, c, amountCodec, baseCodec);
    BaseFromEntries(rec, c, amountCodec, baseCodec);
  }

  lemma BaseFromEntries(rec: Record, c: Container, amountCodec: Codec<Decimal>, baseCodec: Codec<JobBase>)
    requires RoundTrips(baseCodec)
    requires EntriesAgree(rec, c, amountCodec, baseCodec, ExactKeys)
    ensures Required(c, SuperKey, AsData) == Success(baseCodec.serialize(rec.base))
    ensures DeserializeBase(baseCodec.serialize(rec.base), baseCodec) == Success(rec.base)
  {
    assert SuperKey in ExactKeys;
    DeserializeBaseRoundTrip(rec.base, baseCodec);
  }

  /** Every coding key is exactly one of required, optional or defaulted. */
  lemma KeyClasses()
    ensures RequiredKeys + OptionalKeys + DefaultedKeys == AllKeys
    ensures RequiredKeys !! OptionalKeys && RequiredKeys !! DefaultedKeys && OptionalKeys !! DefaultedKeys
  {
  }

  /** `AllKeys` lists every coding key. */
  lemma KeyIsListed(k: CodingKey)
    ensures k in AllKeys
  {
    match k
    case PaymentProcessorKey =>
    case PaymentMethodKey =>
    case RequestContextKey =>
    case RequestKey =>
    case PresentationKey =>
    case IsBoostKey =>
    case SubscriberIdKey =>
    case TargetSubscriptionLevelKey =>
    case PriorSubscriptionLevelKey =>
    case IsNewSubscriptionKey =>
    case ShouldSuppressPaymentAlreadyRedeemedKey =>
    case BoostPaymentIntentIdKey =>
    case AmountKey =>
    case CurrencyCodeKey =>
    case SuperKey =>
  }

  /** The entries of the encoded container, key by key. */
  lemma EncodeEntries(rec: Record, amountCodec: Codec<Decimal>, baseCodec: Codec<JobBase>)
    ensures var c := Encode(rec, amountCodec, baseCodec);
      forall k :: (k in c <==> Entry(rec, k, amountCodec, baseCodec).Some?) &&
                  (k in c ==> c[k] == Entry(rec, k, amountCodec, baseCodec).value)
  {
    var c := Encode(rec, amountCodec, baseCodec);
    forall k
      ensures (k in c <==> Entry(rec, k, amountCodec, baseCodec).Some?)
    {
      KeyIsListed(k);
    }
  }

  /** A container with any required key missing does not decode. */
  lemma MissingRequiredKeyFails(c: Container, k: CodingKey, amountCodec: Codec<Decimal>, baseCodec: Codec<JobBase>)
    requires k in RequiredKeys && k !in c
    ensures Decode(c, amountCodec, baseCodec).Failure?
  {
  }

  /**
   * A record persisted before the two defaulted flags existed decodes with
   * `isNewSubscription` true and `shouldSuppressPaymentAlreadyRedeemed` false.
   */
  lemma LegacyContainerDecodesWithDefaults(rec: Record, amountCodec: Codec<Decimal>, baseCodec: Codec<JobBase>)
    requires RoundTrips(amountCodec) && RoundTrips(baseCodec)
    ensures Decode(Encode(rec, amountCodec, baseCodec) - DefaultedKeys, amountCodec, baseCodec)
         == Success(rec.(isNewSubscription := true, shouldSuppressPaymentAlreadyRedeemed := false))
  {
    EncodeEntries(rec, amountCodec, baseCodec);
    DecodesEveryEntry(rec, Encode(rec, amountCodec, baseCodec) - DefaultedKeys, amountCodec, baseCodec);
  }

  /** Setting the presentation changes exactly one entry of the persisted form. */
  lemma SetPresentationEncoding(rec: Record, presentation: Bytes, amountCodec: Codec<Decimal>, baseCodec: Codec<JobBase>)
    ensures Encode(SetReceiptCredentialPresentation(rec, presentation), amountCodec, baseCodec)
         == Encode(rec, amountCodec, baseCodec)[PresentationKey := DataValue(presentation)]
  {
  }
}

=== FILE: primitives.dfy ===
/** Fixed-width integers and byte strings of the Swift standard library and Foundation. */
module Primitives {

  /** One octet of a Foundation `Data` value. */
  newtype byte = x: int | 0 <= x < 0x100

  /** Foundation `Data`. */
  type Bytes = seq<byte>

  /** Swift `UInt` / `UInt64` on a 64-bit platform. */
  newtype u64 = x: int | 0 <= x < 0x1_0000_0000_0000_0000

  /** Swift `Int64`, the type of SQLite row ids. */
  newtype i64 = x: int | -0x8000_0000_0000_0000 <= x < 0x8000_0000_0000_0000
}

=== FILE: transform_pipeline.dfy ===
/**
 * The composable stream-transform pipeline as its round-trip test configures
 * it: an output pipeline of chunk framing, gzip compression and
 * encryption, and an input pipeline of the inverse stages in reverse order.
 *
 * Each stage is given its whole-stream meaning. Framing, compression and
 * encryption themselves are opaque: a `Codecs` bundle supplies each
 * encode/decode pair, and `RoundTrips` states the one property assumed of
 * them, that decoding undoes encoding (for encryption: with the same valid
 * key material).
 */
module TransformPipeline {
  import opened Wrappers
  import opened Primitives

  // ----- Key material and errors -----

  const IvLength: nat := 16
  const EncryptionKeyLength: nat := 32
  const HmacKeyLength: nat := 32

  datatype KeyMaterial = KeyMaterial(iv: Bytes, encryptionKey: Bytes, hmacKey: Bytes)

  predicate ValidKeys(k: KeyMaterial) {
    |k.iv| == IvLength && |k.encryptionKey| == EncryptionKeyLength && |k.hmacKey| == HmacKeyLength
  }

  datatype StreamError = ConfigurationError | FramingError | CodecError | IntegrityError

  /** The opaque stage algorithms. */
  datatype Codecs = Codecs(
    frame: seq<Bytes> -> Bytes,
    deframe: Bytes -> Result<seq<Bytes>, StreamError>,
    compress: Bytes -> Bytes,
    decompress: Bytes -> Result<Bytes, StreamError>,
    encrypt: (KeyMaterial, Bytes) -> Bytes,
    decrypt: (KeyMaterial, Bytes) -> Result<Bytes, StreamError>)

  /** Every decoder undoes its encoder. */
  ghost predicate RoundTrips(c: Codecs) {
    && (forall writes :: c.deframe(c.frame(writes)) == Success(writes))
    && (forall b :: c.decompress(c.compress(b)) == Success(b))
    && (forall k, b :: ValidKeys(k) ==> c.decrypt(k, c.encrypt(k, b)) == Success(b))
  }

  // ----- Stages -----

  /** The stages an output (encoding) pipeline is built from. */
  datatype OutputTransform = ChunkedOutput | GzipCompressing | Encrypting(keys: KeyMaterial)

  /** The stages an input (decoding) pipeline is built from. */
  datatype InputTransform = Decrypting(keys: KeyMaterial) | GzipDecompressing | ChunkedInput

  /** The throwing initialiser of the encrypting stage: key lengths are checked first. */
  function MakeEncrypting(iv: Bytes, encryptionKey: Bytes, hmacKey: Bytes): (r: Result<OutputTransform, StreamError>)
    ensures r.Success? <==> |iv| == 16 && |encryptionKey| == 32 && |hmacKey| == 32
    ensures r.Success? ==> r.value == Encrypting(KeyMaterial(iv, encryptionKey, hmacKey))
    ensures r.Failure? ==> r.error == ConfigurationError
  {
    var keys := KeyMaterial(iv, encryptionKey, hmacKey);
    if ValidKeys(keys) then Success(Encrypting(keys)) else Failure(ConfigurationError)
  }

  /** The throwing initialiser of the decrypting stage. */
  function MakeDecrypting(iv: Bytes, encryptionKey: Bytes, hmacKey: Bytes): (r: Result<InputTransform, StreamError>)
    ensures r.Success? <==> |iv| == 16 && |encryptionKey| == 32 && |hmacKey| == 32
    ensures r.Success? ==> r.value == Decrypting(KeyMaterial(iv, encryptionKey, hmacKey))
    ensures r.Failure? ==> r.error == ConfigurationError
  {
    var keys := KeyMaterial(iv, encryptionKey, hmacKey);
    if ValidKeys(keys) then Success(Decrypting(keys)) else Failure(ConfigurationError)
  }

  /** The stage that undoes an output stage; encryption is undone with the same keys. */
  function Inverse(t: OutputTransform): (r: InputTransform)
    ensures t.Encrypting? <==> r.Decrypting?
    ensures t.Encrypting? ==> r.keys == t.keys
    ensures t.ChunkedOutput? <==> r.ChunkedInput?
  {
    match t
    case ChunkedOutput => ChunkedInput
    case GzipCompressing => GzipDecompressing
    case Encrypting(keys) => Decrypting(keys)
  }

  /** The input pipeline for an output pipeline: the inverse stages, in reverse order. */
  function DecodePipelineFor(outs: seq<OutputTransform>): (ins: seq<InputTransform>)
    ensures |ins| == |outs|
    ensures forall i :: 0 <= i < |outs| ==> ins[i] == Inverse(outs[|outs| - 1 - i])
  {
    if outs == [] then [] else DecodePipelineFor(outs[1..]) + [Inverse(outs[0])]
  }

  /** A stage that maps bytes to bytes, with usable keys. */
  predicate IsByteStage(t: OutputTransform) {
    !t.ChunkedOutput? && (t.Encrypting? ==> ValidKeys(t.keys))
  }

  predicate IsByteDecoder(t: InputTransform) {
    !t.ChunkedInput?
  }

  /** Chunk framing first, then byte stages only. */
  predicate WellFormedOutput(outs: seq<OutputTransform>) {
    |outs| >= 1 && outs[0] == ChunkedOutput && forall i :: 1 <= i < |outs| ==> IsByteStage(outs[i])
  }

  /** Byte decoders only, then chunk deframing last. */
  predicate WellFormedInput(ins: seq<InputTransform>) {
    |ins| >= 1 && ins[|ins| - 1] == ChunkedInput && forall i :: 0 <= i < |ins| - 1 ==> IsByteDecoder(ins[i])
  }

  function EncodeStage(c: Codecs, t: OutputTransform, b: Bytes): Bytes
    requires IsByteStage(t)
  {
    match t
    case GzipCompressing => c.compress(b)
    case Encrypting(keys) => c.encrypt(keys, b)
  }

  function DecodeStage(c: Codecs, t: InputTransform, b: Bytes): Result<Bytes, StreamError>
    requires IsByteDecoder(t)
  {
    match t
    case GzipDecompressing => c.decompress(b)
    case Decrypting(keys) => c.decrypt(keys, b)
  }

  /** Pushes bytes through the stages, the first stage first. */
  function EncodeBytes(c: Codecs, outs: seq<OutputTransform>, b: Bytes): Bytes
    requires forall i :: 0 <= i < |outs| ==> IsByteStage(outs[i])
  {
    if outs == [] then b else EncodeBytes(c, outs[1..], EncodeStage(c, outs[0], b))
  }

  /** Pulls bytes through the stages, the first stage first; any stage failing fails the read. */
  function DecodeBytes(c: Codecs, ins: seq<InputTransform>, b: Bytes): Result<Bytes, StreamError>
    requires forall i :: 0 <= i < |ins| ==> IsByteDecoder(ins[i])
  {
    if ins == [] then Success(b)
    else
      var earlier :- DecodeBytes(c, ins[..|ins| - 1], b);
      DecodeStage(c, ins[|ins| - 1], earlier)
  }

  /** Appending a stage feeds it the output of the stages before it. */
  lemma {:induction false} EncodeBytesAppend(c: Codecs, outs: seq<OutputTransform>, t: OutputTransform, b: Bytes)
    requires forall i :: 0 <= i < |outs| ==> IsByteStage(outs[i])
    requires IsByteStage(t)
    ensures EncodeBytes(c, outs + [t], b) == EncodeStage(c, t, EncodeBytes(c, outs, b))
  {
    if outs != [] {
      assert (outs + [t])[1..] == outs[1..] + [t];
      EncodeBytesAppend(c, outs[1..], t, EncodeStage(c, outs[0], b));
    }
  }

  /** Prepending a stage makes it the one that reads the source bytes. */
  lemma {:induction false} DecodeBytesPrepend(c: Codecs, t: InputTransform, ins: seq<InputTransform>, b: Bytes)
    requires IsByteDecoder(t)
    requires forall i :: 0 <= i < |ins| ==> IsByteDecoder(ins[i])
    ensures DecodeBytes(c, [t] + ins, b) == (var first :- DecodeStage(c, t, b); DecodeBytes(c, ins, first))
    decreases |ins|
  {
    if ins != [] {
      var front := ins[..|ins| - 1];
      assert ([t] + ins)[..|ins|] == [t] + front;
      DecodeBytesPrepend(c, t, front, b);
      var first := DecodeStage(c, t, b);
      if first.Success? {
        assert ins[..|ins| - 1] == front;
      }
    }
  }

  /**
   * The bytes a closed output stream leaves in its sink: the writes are
   * framed by the first stage, and the last stage writes to the sink.
   */
  function EncodeStream(c: Codecs, outs: seq<OutputTransform>, writes: seq<Bytes>): (r: Bytes)
    requires WellFormedOutput(outs)
    ensures |outs| == 1 ==> r == c.frame(writes)
    ensures |outs| > 1 ==>
      r == EncodeStage(c, outs[|outs| - 1], EncodeBytes(c, outs[1..|outs| - 1], c.frame(writes)))
  {
    LastStageFeedsSink(c, outs, c.frame(writes));
    EncodeBytes(c, outs[1..], c.frame(writes))
  }

  lemma LastStageFeedsSink(c: Codecs, outs: seq<OutputTransform>, framed: Bytes)
    requires WellFormedOutput(outs)
    ensures |outs| > 1 ==>
      EncodeBytes(c, outs[1..], framed) == EncodeStage(c, outs[|outs| - 1], EncodeBytes(c, outs[1..|outs| - 1], framed))
  {
    if |outs| > 1 {
      assert outs[1..] == outs[1..|outs| - 1] + [outs[|outs| - 1]];
      EncodeBytesAppend(c, outs[1..|outs| - 1], outs[|outs| - 1], framed);
    }
  }

  /**
   * The chunks an input stream recovers from its source: the first stage
   * reads the source bytes, the last one deframes, and any stage failing
   * fails the stream.
   */
  function DecodeStream(c: Codecs, ins: seq<InputTransform>, data: Bytes): (r: Result<seq<Bytes>, StreamError>)
    requires WellFormedInput(ins)
    ensures |ins| == 1 ==> r == c.deframe(data)
    ensures |ins| > 1 ==>
      r == (var first :- DecodeStage(c, ins[0], data);
            var framed :- DecodeBytes(c, ins[1..|ins| - 1], first);
            c.deframe(framed))
  {
    FirstStageReadsSource(c, ins, data);
    var framed :- DecodeBytes(c, ins[..|ins| - 1], data);
    c.deframe(framed)
  }

  lemma FirstStageReadsSource(c: Codecs, ins: seq<InputTransform>, data: Bytes)
    requires WellFormedInput(ins)
    ensures |ins| > 1 ==>
      DecodeBytes(c, ins[..|ins| - 1], data) ==
        (var first :- DecodeStage(c, ins[0], data); DecodeBytes(c, ins[1..|ins| - 1], first))
  {
    if |ins| > 1 {
      assert ins[..|ins| - 1] == [ins[0]] + ins[1..|ins| - 1];
      DecodeBytesPrepend(c, ins[0], ins[1..|ins| - 1], data);
    }
  }

  // ----- Composition -----

  /** A byte stage's inverse undoes it. */
  lemma StageRoundTrip(c: Codecs, t: OutputTransform, b: Bytes)
    requires RoundTrips(c) && IsByteStage(t)
    ensures IsByteDecoder(Inverse(t))
    ensures DecodeStage(c, Inverse(t), EncodeStage(c, t, b)) == Success(b)
  {
  }

  /** Reversed inverse stages undo a chain of byte stages. */
  lemma {:induction false} ByteStagesRoundTrip(c: Codecs, outs: seq<OutputTransform>, b: Bytes)
    requires RoundTrips(c)
    requires forall i :: 0 <= i < |outs| ==> IsByteStage(outs[i])
    ensures forall i :: 0 <= i < |outs| ==> IsByteDecoder(DecodePipelineFor(outs)[i])
    ensures DecodeBytes(c, DecodePipelineFor(outs), EncodeBytes(c, outs, b)) == Success(b)
  {
    var ins := DecodePipelineFor(outs);
    if outs != [] {
      var first := EncodeStage(c, outs[0], b);
      ByteStagesRoundTrip(c, outs[1..], first);
      var rest := DecodePipelineFor(outs[1..]);
      assert ins == rest + [Inverse(outs[0])];
      assert ins[..|ins| - 1] == rest;
      StageRoundTrip(c, outs[0], b);
    }
  }

  /**
   * Decoding with the derived input pipeline recovers exactly the writes:
   * the composition of the two pipelines is the identity.
   */
  lemma PipelineRoundTrip(c: Codecs, outs: seq<OutputTransform>, writes: seq<Bytes>)
    requires RoundTrips(c) && WellFormedOutput(outs)
    ensures WellFormedInput(DecodePipelineFor(outs))
    ensures DecodeStream(c, DecodePipelineFor(outs), EncodeStream(c, outs, writes)) == Success(writes)
  {
    var ins := DecodePipelineFor(outs);
    ByteStagesRoundTrip(c, outs[1..], c.frame(writes));
    var rest := DecodePipelineFor(outs[1..]);
    assert ins == rest + [ChunkedInput];
    assert ins[..|ins| - 1] == rest;
  }

  // ----- Streams -----

  /** An open output stream: its stages and the payload of every write so far. */
  datatype OutputStream = OutputStream(transforms: seq<OutputTransform>, writes: seq<Bytes>)

  function NewOutputStream(outs: seq<OutputTransform>): (os: OutputStream)
    ensures os.transforms == outs && os.writes == []
  {
    OutputStream(outs, [])
  }

  /** One `write(data:)` call; each call keeps its own boundary. */
  function Write(os: OutputStream, data: Bytes): (r: OutputStream)
    ensures r.transforms == os.transforms
    ensures |r.writes| == |os.writes| + 1 && r.writes[..|os.writes|] == os.writes && r.writes[|os.writes|] == data
  {
    os.(writes := os.writes + [data])
  }

  /** `close()`: the sink's accumulation once every stage has finished. */
  function Close(c: Codecs, os: OutputStream): (accumulation: Bytes)
    requires WellFormedOutput(os.transforms)
    ensures RoundTrips(c) ==> DecodeStream(c, DecodePipelineFor(os.transforms), accumulation) == Success(os.writes)
  {
    CloseRoundTrip(c, os);
    EncodeStream(c, os.transforms, os.writes)
  }

  lemma CloseRoundTrip(c: Codecs, os: OutputStream)
    requires WellFormedOutput(os.transforms)
    ensures RoundTrips(c) ==>
      DecodeStream(c, DecodePipelineFor(os.transforms), EncodeStream(c, os.transforms, os.writes)) == Success(os.writes)
  {
    if RoundTrips(c) {
      PipelineRoundTrip(c, os.transforms, os.writes);
    }
  }

  /** An input stream: decoded chunks not yet read, and the unread rest of the current one. */
  datatype InputStream = InputStream(pending: seq<Bytes>, current: Bytes)

  /** Opens an input stream over the source bytes; a decoding error is what reading throws. */
  function OpenInputStream(c: Codecs, ins: seq<InputTransform>, data: Bytes): (r: Result<InputStream, StreamError>)
    requires WellFormedInput(ins)
    ensures r.Success? <==> DecodeStream(c, ins, data).Success?
    ensures r.Success? ==> r.value == InputStream(DecodeStream(c, ins, data).value, [])
  {
    var chunks :- DecodeStream(c, ins, data);
    Success(InputStream(chunks, []))
  }

  /** `hasBytesAvailable`: false once every chunk, empty ones included, has been read. */
  predicate HasBytesAvailable(st: InputStream): (b: bool)
    ensures !b <==> st == InputStream([], [])
  {
    |st.pending| > 0 || |st.current| > 0
  }

  function Min(a: nat, b: nat): nat {
    if a <= b then a else b
  }

  function TotalLength(cs: seq<Bytes>): nat {
    if cs == [] then 0 else |cs[0]| + TotalLength(cs[1..])
  }

  /**
   * `read(maxLength:)`: at most `maxLength` bytes of the current chunk,
   * moving to the next chunk when the current one is used up. An empty
   * chunk reads as one empty result, which does not end the stream.
   */
  function Read(st: InputStream, maxLength: nat): (r: (InputStream, Bytes))
    requires maxLength > 0 && HasBytesAvailable(st)
    ensures |r.1| <= maxLength
    ensures |st.current| > 0 ==> r.1 + r.0.current == st.current && r.0.pending == st.pending
    ensures |st.current| == 0 ==> r.1 + r.0.current == st.pending[0] && r.0.pending == st.pending[1..]
    ensures |r.1| == 0 ==> |r.0.current| == 0
  {
    var (source, rest) := if |st.current| > 0 then (st.current, st.pending) else (st.pending[0], st.pending[1..]);
    var n := Min(maxLength, |source|);
    assert source[..n] + source[n..] == source;
    (InputStream(rest, source[n..]), source[..n])
  }

  /** An empty chunk reads as an empty result, and the chunks after it remain available. */
  lemma EmptyReadDoesNotEnd(st: InputStream, maxLength: nat)
    requires maxLength > 0 && |st.current| == 0 && |st.pending| >= 2 && |st.pending[0]| == 0
    ensures Read(st, maxLength).1 == []
    ensures HasBytesAvailable(Read(st, maxLength).0)
  {
  }

  // ----- Reading back -----

  /** The reads one chunk takes: slices of `maxLength` bytes, one (possibly empty) slice at least. */
  function PiecesOf(chunk: Bytes, maxLength: nat): (r: seq<Bytes>)
    requires maxLength > 0
    ensures |r| >= 1
    ensures forall i :: 0 <= i < |r| ==> |r[i]| <= maxLength
    decreases |chunk|
  {
    if |chunk| <= maxLength then [chunk] else [chunk[..maxLength]] + PiecesOf(chunk[maxLength..], maxLength)
  }

  /** The reads a sequence of chunks takes, chunk by chunk. */
  function Pieces(chunks: seq<Bytes>, maxLength: nat): (r: seq<Bytes>)
    requires maxLength > 0
    ensures forall i :: 0 <= i < |r| ==> |r[i]| <= maxLength
  {
    if chunks == [] then [] else PiecesOf(chunks[0], maxLength) + Pieces(chunks[1..], maxLength)
  }

  /** The reads still to come from a stream. */
  function Remaining(st: InputStream, maxLength: nat): seq<Bytes>
    requires maxLength > 0
  {
    (if |st.current| > 0 then PiecesOf(st.current, maxLength) else []) + Pieces(st.pending, maxLength)
  }

  /** `hasBytesAvailable` is false exactly when no read remains. */
  lemma HasBytesAvailableIffReadsRemain(st: InputStream, maxLength: nat)
    requires maxLength > 0
    ensures HasBytesAvailable(st) <==> Remaining(st, maxLength) != []
  {
    if |st.pending| > 0 {
      assert st.pending == [st.pending[0]] + st.pending[1..];
      assert |PiecesOf(st.pending[0], maxLength)| >= 1;
    }
  }

  /** One read takes the first of the remaining reads. */
  lemma ReadTakesFirstPiece(st: InputStream, maxLength: nat)
    requires maxLength > 0 && HasBytesAvailable(st)
    ensures var (next, piece) := Read(st, maxLength);
      [piece] + Remaining(next, maxLength) == Remaining(st, maxLength)
  {
    var (next, piece) := Read(st, maxLength);
    var source := if |st.current| > 0 then st.current else st.pending[0];
    assert source == piece + next.current;
    if |source| <= maxLength {
      assert piece == source;
    } else {
      assert piece == source[..maxLength] && next.current == source[maxLength..];
    }
    assert PiecesOf(source, maxLength) ==
      [piece] + (if |next.current| > 0 then PiecesOf(next.current, maxLength) else []);
    if |st.current| == 0 {
      assert st.pending == [st.pending[0]] + st.pending[1..];
    }
  }

  /** Reads until no bytes are available, keeping every result, empty ones included. */
  method ReadToEnd(st: InputStream, maxLength: nat) returns (results: seq<Bytes>)
    requires maxLength > 0
    ensures results == Remaining(st, maxLength)
    ensures forall i :: 0 <= i < |results| ==> |results[i]| <= maxLength
  {
    results := [];
    var cur := st;
    while HasBytesAvailable(cur)
      invariant results + Remaining(cur, maxLength) == Remaining(st, maxLength)
      decreases TotalLength(cur.pending) + |cur.current|, |cur.pending|
    {
      var (next, piece) := Read(cur, maxLength);
      ReadTakesFirstPiece(cur, maxLength);
      if |cur.current| == 0 {
        assert cur.pending == [cur.pending[0]] + cur.pending[1..];
      }
      results := results + [piece];
      cur := next;
    }
    assert Remaining(cur, maxLength) == [];
    assert forall i :: 0 <= i < |results| ==> results[i] in Remaining(st, maxLength);
  }

  /**
   * One read while a stage may still be buffering: a stalled read returns
   * no bytes and leaves the stream as it was, bytes still available, so it
   * does not end the read loop; any other read is an ordinary `Read`.
   */
  function ReadOrStall(st: InputStream, maxLength: nat, stall: bool): (r: (InputStream, Bytes))
    requires maxLength > 0 && HasBytesAvailable(st)
    ensures stall ==> r.1 == [] && r.0 == st && HasBytesAvailable(r.0)
    ensures !stall ==> r == Read(st, maxLength)
    ensures |r.1| <= maxLength
  {
    if stall then (st, []) else Read(st, maxLength)
  }

  /** Every result holds at most `maxLength` bytes. */
  predicate AtMost(rs: seq<Bytes>, maxLength: nat) {
    forall i :: 0 <= i < |rs| ==> |rs[i]| <= maxLength
  }

  lemma AtMostAppend(rs: seq<Bytes>, x: Bytes, maxLength: nat)
    requires AtMost(rs, maxLength) && |x| <= maxLength
    ensures AtMost(rs + [x], maxLength)
  {
  }

  /**
   * The read loop when reads may stall: `stalls[i]` says whether the i-th
   * read finds every stage still buffering. Whatever the schedule, the
   * non-empty results are exactly the non-empty reads of the stream.
   */
  method ReadToEndStalling(st: InputStream, maxLength: nat, stalls: seq<bool>) returns (results: seq<Bytes>)
    requires maxLength > 0
    ensures NonEmpty(results) == NonEmpty(Remaining(st, maxLength))
    ensures AtMost(results, maxLength)
  {
    results := [];
    var cur := st;
    var schedule := stalls;
    ghost var kept := NonEmpty(Remaining(st, maxLength));
    while HasBytesAvailable(cur)
      invariant NonEmpty(results) + NonEmpty(Remaining(cur, maxLength)) == kept
      invariant AtMost(results, maxLength)
      decreases TotalLength(cur.pending) + |cur.current|, |cur.pending|, |schedule|
    {
      var stall := schedule != [] && schedule[0];
      if schedule != [] {
        schedule := schedule[1..];
      }
      var step := ReadOrStall(cur, maxLength, stall);
      StepKeepsKept(results, cur, maxLength, stall, kept);
      ReadProgresses(cur, maxLength);
      AtMostAppend(results, step.1, maxLength);
      results := results + [step.1];
      cur := step.0;
    }
    assert Remaining(cur, maxLength) == [];
    assert NonEmpty(Remaining(cur, maxLength)) == [];
    assert NonEmpty(results) + [] == NonEmpty(results);
  }

  /** A read that does not stall consumes bytes, or else an empty chunk. */
  lemma ReadProgresses(st: InputStream, maxLength: nat)
    requires maxLength > 0 && HasBytesAvailable(st)
    ensures var next := Read(st, maxLength).0;
      || TotalLength(next.pending) + |next.current| < TotalLength(st.pending) + |st.current|
      || (TotalLength(next.pending) + |next.current| == TotalLength(st.pending) + |st.current| && |next.pending| < |st.pending|)
  {
  }

  /** Whether or not a read stalls, the results kept so far and the reads to come keep the same total. */
  lemma StepKeepsKept(results: seq<Bytes>, cur: InputStream, maxLength: nat, stall: bool, kept: seq<Bytes>)
    requires maxLength > 0 && HasBytesAvailable(cur)
    requires NonEmpty(results) + NonEmpty(Remaining(cur, maxLength)) == kept
    ensures NonEmpty(results + [ReadOrStall(cur, maxLength, stall).1])
      + NonEmpty(Remaining(ReadOrStall(cur, maxLength, stall).0, maxLength)) == kept
  {
    var (next, piece) := ReadOrStall(cur, maxLength, stall);
    if stall {
      KeptAfterStall(results, Remaining(cur, maxLength), kept);
    } else {
      ReadTakesFirstPiece(cur, maxLength);
      KeptAfterRead(results, piece, Remaining(next, maxLength), kept);
    }
  }

  /** A read moves its piece from the remaining reads to the results without changing what is kept. */
  lemma KeptAfterRead(results: seq<Bytes>, piece: Bytes, rest: seq<Bytes>, kept: seq<Bytes>)
    requires NonEmpty(results) + NonEmpty([piece] + rest) == kept
    ensures NonEmpty(results + [piece]) + NonEmpty(rest) == kept
  {
    var a, b, c := NonEmpty(results), NonEmpty([piece]), NonEmpty(rest);
    NonEmptyAppend(results, [piece]);
    NonEmptyAppend([piece], rest);
    SeqAppendAssoc(a, b, c);
  }

  lemma SeqAppendAssoc<T>(a: seq<T>, b: seq<T>, c: seq<T>)
    ensures (a + b) + c == a + (b + c)
  {
  }

  /** A stalled read adds only an empty result, which is not kept. */
  lemma KeptAfterStall(results: seq<Bytes>, rest: seq<Bytes>, kept: seq<Bytes>)
    requires NonEmpty(results) + NonEmpty(rest) == kept
    ensures NonEmpty(results + [[]]) + NonEmpty(rest) == kept
  {
    var empty: seq<Bytes> := [[]];
    assert empty[1..] == [];
    assert NonEmpty(empty) == [];
    calc {
      NonEmpty(results + empty);
      { NonEmptyAppend(results, empty); }
      NonEmpty(results) + NonEmpty(empty);
      NonEmpty(results);
    }
  }

  /** The results a caller keeps: the non-empty ones. */
  function NonEmpty(rs: seq<Bytes>): (r: seq<Bytes>)
    ensures forall i :: 0 <= i < |r| ==> |r[i]| > 0
    ensures forall x {:trigger x in r} :: x in r <==> x in rs && |x| > 0
    ensures |r| <= |rs|
  {
    if rs == [] then []
    else
      assert rs == [rs[0]] + rs[1..];
      (if |rs[0]| > 0 then [rs[0]] else []) + NonEmpty(rs[1..])
  }

  /** Filtering distributes over concatenation, so results are kept in order and counted piecewise. */
  lemma {:induction false} NonEmptyAppend(a: seq<Bytes>, b: seq<Bytes>)
    ensures NonEmpty(a + b) == NonEmpty(a) + NonEmpty(b)
  {
    if a == [] {
      assert a + b == b;
    } else {
      var head: seq<Bytes> := if |a[0]| > 0 then [a[0]] else [];
      var ab := a + b;
      assert ab[0] == a[0];
      assert ab[1..] == a[1..] + b;
      calc {
        NonEmpty(ab);
        head + NonEmpty(ab[1..]);
        head + NonEmpty(a[1..] + b);
        { NonEmptyAppend(a[1..], b); }
        head + (NonEmpty(a[1..]) + NonEmpty(b));
        (head + NonEmpty(a[1..])) + NonEmpty(b);
        NonEmpty(a) + NonEmpty(b);
      }
    }
  }


  /** Discarding empty results keeps a sequence without any. */
  lemma {:induction false} NonEmptyKeepsNonEmpty(rs: seq<Bytes>)
    requires forall i :: 0 <= i < |rs| ==> |rs[i]| > 0
    ensures NonEmpty(rs) == rs
  {
    if rs != [] {
      NonEmptyKeepsNonEmpty(rs[1..]);
    }
  }

  /** All bytes of a sequence of chunks, in order. */
  function Concat(cs: seq<Bytes>): Bytes {
    if cs == [] then [] else cs[0] + Concat(cs[1..])
  }

  lemma {:induction false} ConcatAppend(a: seq<Bytes>, b: seq<Bytes>)
    ensures Concat(a + b) == Concat(a) + Concat(b)
  {
    if a == [] {
      assert a + b == b;
    } else {
      assert (a + b)[1..] == a[1..] + b;
      ConcatAppend(a[1..], b);
    }
  }

  /** Chunks no longer than `maxLength` are read whole, one read each. */
  lemma {:induction false} SmallChunksReadWhole(chunks: seq<Bytes>, maxLength: nat)
    requires maxLength > 0
    requires forall i :: 0 <= i < |chunks| ==> |chunks[i]| <= maxLength
    ensures Pieces(chunks, maxLength) == chunks
  {
    if chunks != [] {
      SmallChunksReadWhole(chunks[1..], maxLength);
    }
  }

  lemma {:induction false} PiecesOfConcat(chunk: Bytes, maxLength: nat)
    requires maxLength > 0
    ensures Concat(PiecesOf(chunk, maxLength)) == chunk
    decreases |chunk|
  {
    if |chunk| > maxLength {
      var rest := PiecesOf(chunk[maxLength..], maxLength);
      PiecesOfConcat(chunk[maxLength..], maxLength);
      assert ([chunk[..maxLength]] + rest)[1..] == rest;
      assert chunk[..maxLength] + chunk[maxLength..] == chunk;
    }
  }

  /** Whatever `maxLength` is, the reads hold exactly the bytes of the chunks, in order. */
  lemma {:induction false} ReadsPreserveBytes(chunks: seq<Bytes>, maxLength: nat)
    requires maxLength > 0
    ensures Concat(Pieces(chunks, maxLength)) == Concat(chunks)
  {
    if chunks != [] {
      ReadsPreserveBytes(chunks[1..], maxLength);
      PiecesOfConcat(chunks[0], maxLength);
      ConcatAppend(PiecesOf(chunks[0], maxLength), Pieces(chunks[1..], maxLength));
    }
  }

  /**
   * Writing, closing, and reading the sink's accumulation back through the
   * derived input pipeline until no bytes are available yields the writes
   * themselves when no write exceeds `maxLength`.
   */
  lemma EndToEnd(c: Codecs, outs: seq<OutputTransform>, writes: seq<Bytes>, maxLength: nat)
    requires RoundTrips(c) && WellFormedOutput(outs) && maxLength > 0
    requires forall i :: 0 <= i < |writes| ==> |writes[i]| <= maxLength
    ensures WellFormedInput(DecodePipelineFor(outs))
    ensures var accumulation := Close(c, OutputStream(outs, writes));
      var input := OpenInputStream(c, DecodePipelineFor(outs), accumulation);
      input == Success(InputStream(writes, [])) && Remaining(input.value, maxLength) == writes
  {
    PipelineRoundTrip(c, outs, writes);
    SmallChunksReadWhole(writes, maxLength);
  }

  /** Closing a stream nobody wrote to reads back as nothing at all. */
  lemma EmptyStreamReadsNothing(c: Codecs, outs: seq<OutputTransform>, maxLength: nat)
    requires RoundTrips(c) && WellFormedOutput(outs) && maxLength > 0
    ensures WellFormedInput(DecodePipelineFor(outs))
    ensures var input := OpenInputStream(c, DecodePipelineFor(outs), Close(c, NewOutputStream(outs)));
      input.Success? && !HasBytesAvailable(input.value) && Remaining(input.value, maxLength) == []
  {
    EndToEnd(c, outs, [], maxLength);
  }

  /** The test's writes: "w", "xx", "yyy". */
  const ScenarioWrites: seq<Bytes> := [[0x77], [0x78, 0x78], [0x79, 0x79, 0x79]]

  lemma ScenarioWritesKept()
    ensures NonEmpty(ScenarioWrites) == ScenarioWrites && |ScenarioWrites| == 3
  {
    NonEmptyKeepsNonEmpty(ScenarioWrites);
  }

  /** The inverse pipeline of a three-stage output pipeline. */
  lemma DecodePipelineOfThree(a: OutputTransform, b: OutputTransform, t: OutputTransform)
    ensures DecodePipelineFor([a, b, t]) == [Inverse(t), Inverse(b), Inverse(a)]
  {
    assert [a, b, t][1..] == [b, t];
    assert [b, t][1..] == [t];
  }

  /** The test's writing half: a new stream, the three writes, then `close()`. */
  method WriteScenario(c: Codecs, outs: seq<OutputTransform>) returns (accumulation: Bytes)
    requires WellFormedOutput(outs)
    ensures accumulation == Close(c, OutputStream(outs, ScenarioWrites))
  {
    var os := NewOutputStream(outs);
    os := Write(os, [0x77]);
    assert os.writes == [[0x77]];
    os := Write(os, [0x78, 0x78]);
    assert os.writes == [[0x77], [0x78, 0x78]];
    os := Write(os, [0x79, 0x79, 0x79]);
    assert os.writes == ScenarioWrites;
    accumulation := Close(c, os);
  }

  /**
   * The round-trip test: random 16/32/32-byte key material shared by both
   * pipelines, writes "w", "xx", "yyy", close, then reads of 64 bytes until
   * none are available, any of them possibly stalling: exactly three
   * non-empty results, the three writes.
   */
  method RoundTripScenario(c: Codecs, iv: Bytes, encryptionKey: Bytes, hmacKey: Bytes, stalls: seq<bool>) returns (results: seq<Bytes>)
    requires RoundTrips(c)
    requires |iv| == 16 && |encryptionKey| == 32 && |hmacKey| == 32
    ensures |NonEmpty(results)| == 3
    ensures NonEmpty(results) == ScenarioWrites
  {
    var encrypting := MakeEncrypting(iv, encryptionKey, hmacKey).value;
    var outs := [ChunkedOutput, GzipCompressing, encrypting];
    var accumulation := WriteScenario(c, outs);

    var decrypting := MakeDecrypting(iv, encryptionKey, hmacKey).value;
    var ins := [decrypting, GzipDecompressing, ChunkedInput];
    DecodePipelineOfThree(ChunkedOutput, GzipCompressing, encrypting);
    EndToEnd(c, outs, ScenarioWrites, 64);
    var input := OpenInputStream(c, ins, accumulation);
    results := ReadToEndStalling(input.value, 64, stalls);
    ScenarioWritesKept();
  }


}

=== FILE: url_session.dfy ===
/**
 * The pure parts of the URL-session layer: the HTTP method enum with its
 * token codec, and the domain-fronting predicates.
 *
 * Method tokens are the case-sensitive tokens of section 9 of RFC 9110
 * plus PATCH from RFC 5789.
 */
module UrlSession {
  import opened Wrappers

  // ----- HTTP methods -----

  /** The closed set of request methods the client issues. */
  datatype HttpMethod = Get | Post | Put | Head | Patch | Delete

  /** Every token `MethodName` can produce. */
  const Tokens: set<string> := {"GET", "POST", "PUT", "HEAD", "PATCH", "DELETE"}

  predicate IsUpperAsciiLetter(c: char) {
    'A' <= c <= 'Z'
  }

  predicate IsLowerAsciiLetter(c: char) {
    'a' <= c <= 'z'
  }

  /** The error `method(for:)` throws, carrying the rejected input. */
  datatype MethodError = UnknownMethod(token: Option<string>)

  /** The method's request-line token. */
  function MethodName(m: HttpMethod): (r: string)
    ensures r in Tokens
    ensures |r| >= 3 && forall i :: 0 <= i < |r| ==> IsUpperAsciiLetter(r[i])
  {
    match m
    case Get => "GET"
    case Post => "POST"
    case Put => "PUT"
    case Head => "HEAD"
    case Patch => "PATCH"
    case Delete => "DELETE"
  }

  /** Parses an optional token; anything but an exact upper-case token is an error. */
  function MethodFor(token: Option<string>): (r: Result<HttpMethod, MethodError>)
    ensures r.Success? <==> token.Some? && token.value in Tokens
    ensures r.Success? ==> MethodName(r.value) == token.value
    ensures r.Failure? ==> r.error == UnknownMethod(token)
  {
    match token
    case None => Failure(UnknownMethod(token))
    case Some(s) =>
      if s == "GET" then Success(Get)
      else if s == "POST" then Success(Post)
      else if s == "PUT" then Success(Put)
      else if s == "HEAD" then Success(Head)
      else if s == "PATCH" then Success(Patch)
      else if s == "DELETE" then Success(Delete)
      else Failure(UnknownMethod(token))
  }

  /** `CustomStringConvertible.description`: the printed form parses back to the method. */
  function Description(m: HttpMethod): (r: string)
    ensures r == MethodName(m)
    ensures MethodFor(Some(r)) == Success(m)
  {
    MethodName(m)
  }

  /** Distinct methods have distinct tokens. */
  lemma MethodNameInjective(a: HttpMethod, b: HttpMethod)
    ensures MethodName(a) == MethodName(b) ==> a == b
  {
  }

  /** Every one of the six tokens is produced by some method. */
  lemma MethodNameOnto(t: string)
    requires t in Tokens
    ensures exists m :: MethodName(m) == t
  {
    if t == "GET" { assert MethodName(Get) == t; }
    else if t == "POST" { assert MethodName(Post) == t; }
    else if t == "PUT" { assert MethodName(Put) == t; }
    else if t == "HEAD" { assert MethodName(Head) == t; }
    else if t == "PATCH" { assert MethodName(Patch) == t; }
    else { assert MethodName(Delete) == t; }
  }

  /** Parsing a method's token gives the method back. */
  lemma ParseNameRoundTrip(m: HttpMethod)
    ensures MethodFor(Some(MethodName(m))) == Success(m)
  {
  }

  /** A successful parse saw exactly the token of the method it returns. */
  lemma NameParseRoundTrip(token: Option<string>, m: HttpMethod)
    requires MethodFor(token) == Success(m)
    ensures token == Some(MethodName(m))
  {
  }

  /** Parsing is case-sensitive: a token with any lower-case letter is rejected. */
  lemma ParseRejectsLowerCase(s: string, i: int)
    requires 0 <= i < |s| && IsLowerAsciiLetter(s[i])
    ensures MethodFor(Some(s)) == Failure(UnknownMethod(Some(s)))
  {
    assert !IsUpperAsciiLetter(s[i]);
  }

  // ----- Domain fronting -----

  /** The part of a Foundation `URL` the predicates look at. */
  datatype Url = Url(absoluteString: string)

  datatype UrlFrontingInfo = UrlFrontingInfo(
    frontingUrlWithoutPathPrefix: Url,
    frontingUrlWithPathPrefix: Url,
    unfrontedBaseUrl: Url)

  /** What the session knows of its endpoint; `baseUrl` may be absent. */
  datatype Endpoint = Endpoint(baseUrl: Option<Url>, frontingInfo: Option<UrlFrontingInfo>)

  /** ASCII lower-casing of one character; every other character is kept. */
  function AsciiLower(c: char): (r: char)
    ensures IsUpperAsciiLetter(c) ==> IsLowerAsciiLetter(r) && r as int == c as int + 32
    ensures !IsUpperAsciiLetter(c) ==> r == c
    ensures !IsUpperAsciiLetter(r)
  {
    if IsUpperAsciiLetter(c) then (c as int + 32) as char else c
  }

  /** `String.lowercased()` restricted to ASCII letters. */
  function Lower(s: string): (r: string)
    ensures |r| == |s|
    ensures forall i :: 0 <= i < |s| ==> r[i] == AsciiLower(s[i])
  {
    seq(|s|, i requires 0 <= i < |s| => AsciiLower(s[i]))
  }

  /**
   * A URL string is fronted when its lower-cased form starts with the
   * fronting URL; the fronting URL itself is compared as it is.
   */
  function IsFrontedUrl(info: UrlFrontingInfo, urlString: string): (b: bool)
    ensures b <==>
      var p := info.frontingUrlWithoutPathPrefix.absoluteString;
      |p| <= |urlString| && forall i :: 0 <= i < |p| ==> AsciiLower(urlString[i]) == p[i]
  {
    var p := info.frontingUrlWithoutPathPrefix.absoluteString;
    var lowered := Lower(urlString);
    assert |p| <= |lowered| ==> (lowered[..|p|] == p <==> forall i :: 0 <= i < |p| ==> lowered[i] == p[i]);
    p <= lowered
  }

  /** Lower-casing twice is lower-casing once. */
  lemma LowerIdempotent(s: string)
    ensures Lower(Lower(s)) == Lower(s)
  {
  }

  /** The test ignores the case of the URL string. */
  lemma IsFrontedUrlIgnoresCase(info: UrlFrontingInfo, urlString: string)
    ensures IsFrontedUrl(info, urlString) == IsFrontedUrl(info, Lower(urlString))
  {
    LowerIdempotent(urlString);
  }

  /** A fronting URL holding an upper-case ASCII letter matches no URL string at all. */
  lemma UpperCasePrefixNeverMatches(info: UrlFrontingInfo, urlString: string, i: int)
    requires 0 <= i < |info.frontingUrlWithoutPathPrefix.absoluteString|
    requires IsUpperAsciiLetter(info.frontingUrlWithoutPathPrefix.absoluteString[i])
    ensures !IsFrontedUrl(info, urlString)
  {
  }

  /** The base URL requests go to when fronting is bypassed. */
  function UnfrontedBaseUrl(endpoint: Endpoint): (r: Option<Url>)
    ensures endpoint.frontingInfo.Some? ==> r == Some(endpoint.frontingInfo.value.unfrontedBaseUrl)
    ensures endpoint.frontingInfo.None? ==> r == endpoint.baseUrl
    ensures r.None? <==> endpoint.frontingInfo.None? && endpoint.baseUrl.None?
  {
    match endpoint.frontingInfo
    case Some(info) => Some(info.unfrontedBaseUrl)
    case None => endpoint.baseUrl
  }
}

=== FILE: wrappers.dfy ===
/** Failure-compatible wrappers used for Swift optionals and thrown errors. */
module Wrappers {

  /** An optional value, the model of a Swift `T?`. */
  datatype Option<+T> = None | Some(value: T) {

    predicate IsFailure() {
      None?
    }

    function PropagateFailure<U>(): Option<U>
      requires None?
    {
      None
    }

    function Extract(): T
      requires Some?
    {
      value
    }

    /** The model of Swift's `??` operator. */
    function GetOr(default: T): T {
      match this
      case Some(v) => v
      case None => default
    }
  }

  /** Either a value or the error a Swift `throws` function would raise. */
  datatype Result<+R, +E> = Success(value: R) | Failure(error: E) {

    predicate IsFailure() {
      Failure?
    }

    function PropagateFailure<U>(): Result<U, E>
      requires Failure?
    {
      Failure(error)
    }

    function Extract(): R
      requires Success?
    {
      value
    }
  }
}
